=== FILE: README.md ===
# Coffee-shop pricing engine in Dafny

This project models the pricing core of a coffee shop's backend:
- the discount records and their model-level predicates;
- the cart with its total bookkeeping;
- the order document;
- the discount service, which validates a discount against a cart, computes its amount, applies it with rounding to cents and lists the discounts a customer may use;
- the handlers that add lines to a cart and remove them, create and update discounts, check an apply request, place an order and change its status.

Every rule is a pure function of its inputs. How the model represents things:
- Money is an exact `real`.
- Time is an `int` in milliseconds. The current time `now` is a parameter.
- Database lookups are parameters. The count of a customer's orders carrying a discount is an `Option<nat>`, with `None` for a failed lookup. The listing takes a function from discount id to such a count.
- Stored documents are passed in as `Option`s.
- Mongoose's save-time validation is written out as predicates:
  - `Discounts.IsValidDiscount`
  - `Carts.LinesValid`
  - `Orders.DraftAccepted`
  A document that fails them becomes a 500 (`Api.ServerError`).
- HTTP responses become `Result<_, Api.ApiError>`, with `BadRequest`, `NotFound` and `ServerError` carrying the handler's message.

Modules follow the source files:
- `Money`: JavaScript's `Math.round(x * 100) / 100`, modelled as `Floor(100x + 1/2) / 100`.
- `Catalog`: backend/models/MenuItem.js.
- `Discounts`: backend/models/Discount.js.
- `Carts`: backend/models/cartModel.js.
- `Orders`: backend/models/orderModel.js.
- `DiscountService`: backend/services/discountService.js.
- `CartController`, `DiscountController`, `OrderController`: the three controllers.
- `Scenarios`: the cases of backend/tests/discountSystem.test.js, restated as lemmas.

`Wrappers` and `Api` hold the `Option`/`Result` types and the error shape.

The model follows the code where it departs from the intended design:
- Adding a line to a cart or removing one does not clear the applied discount or refresh the stored totals (`CartController.AddKeepsStaleDiscount`).
- Placing an order neither re-validates the cart's discount nor increments its usage. Nothing in the backend calls `incrementUsage`; the model states what a run of such calls would do.
- Updating a discount does not repeat the item_specific check that creating one makes (`DiscountController.UpdateAllowsItemSpecificWithoutItems`).

backend/models/Discount.js:74-79 puts the date-order validator in the schema options. Both handlers check `valid_from < valid_to` themselves before saving, so the model keeps that order in `IsValidDiscount`, and no handler outcome depends on whether the library applies the option.

## Model

| member | source | states |
|---|---|---|
| `Money.RoundCents` | backend/services/discountService.js:214-216 | Rounding to cents gives a whole number of cents within half a cent of the input, and keeps a non-negative amount non-negative. |
| `Money.RoundedDifferenceWithinCent` | backend/services/discountService.js:210-216 | Rounding a difference agrees to within one cent with the difference of the rounded amounts. This is the bound the as-written application keeps. |
| `Discounts.ParseType` | backend/models/Discount.js:3 | Reading a type string gives back a type whose name is that string. It is one of the three schema types exactly when the string is "percentage", "fixed" or "item_specific". |
| `Discounts.ParseTypeName` | backend/models/Discount.js:23-27 | Each of the three enum types reads back from its own name. |
| `Discounts.IsValidDiscount` | backend/models/Discount.js:5-81 | The schema's validators: a name of 1 to 255 UTF-16 code units (a character above U+FFFF counts twice, as JavaScript string length does), one of the three types, a non-negative value and minimum order, both caps unset or at least 1, and the window opening before it closes. |
| `Discounts.Utf16LengthBounds` | backend/models/Discount.js:10 | The length `maxlength` measures is between the number of characters and twice that, and equals the number of characters when none lies above U+FFFF. |
| `Discounts.IsCurrentlyValid` | backend/models/Discount.js:89-94 | The `is_currently_valid` virtual: active, and `now` inside the window with both ends included. |
| `Discounts.HasUsageRemaining` | backend/models/Discount.js:97-100 | `hasUsageRemaining`: no total cap, or fewer uses than the cap. |
| `Discounts.CanBeUsedByCustomer` | backend/models/Discount.js:103-114 | `canBeUsedByCustomer` given the looked-up count: no per-customer cap, or a count below it. |
| `Discounts.IncrementUsage` | backend/services/discountService.js:233-242 | The usage counter grows by one when the write goes through. A swallowed failure leaves it unchanged. No other field changes. |
| `Discounts.IncrementAllCounts` | backend/services/discountService.js:233-242 | Over a run of `incrementUsage` calls, the counter grows by exactly the number of writes that went through, never by more than the number of calls, and nothing else changes. |
| `Discounts.IncrementKeepsValid` | backend/models/Discount.js:66-69 | Incrementing the counter keeps a schema-valid discount valid, since `current_uses` has no bound. |
| `Carts.Total` | backend/models/cartModel.js:50-54 | The lines' total is non-negative when every price and quantity is. |
| `Carts.TotalAppend` | backend/models/cartModel.js:50-54 | The total of two runs of lines placed end to end is the sum of their totals. |
| `Carts.CalculateTotalBeforeDiscount` | backend/models/cartModel.js:50-54 | The loop's accumulator ends at the sum of price times quantity over the lines, and at 0 for an empty cart. |
| `Carts.ClearDiscount` | backend/models/cartModel.js:57-62 | After clearing, there is no applied discount and the amount is 0. Both totals equal the recomputed sum of the lines. Owner and lines are unchanged. |
| `Carts.ApplyDiscount` | backend/models/cartModel.js:65-70 | After applying, the discount is recorded and the total before discount is recomputed from the lines. The amount is stored, and after plus amount equals before. Owner and lines are unchanged. |
| `Carts.ClearDiscountIdempotent` | backend/models/cartModel.js:57-62 | Clearing twice gives the same cart as clearing once. |
| `Carts.ClearUndoesApply` | backend/models/cartModel.js:57-70 | Clearing after applying gives the same cart as clearing without applying. |
| `Carts.ApplyDiscountKeepsTotalNonNegative` | backend/models/cartModel.js:65-70 | An amount between 0 and the lines' total leaves the total after discount between 0 and the total before. |
| `Orders.ParseStatus` | backend/models/orderModel.js:52-56 | A status string is accepted exactly when it is one of the four enum values, and is then read as the status of that name. |
| `Orders.ParseStatusName` | backend/models/orderModel.js:52-56 | Every status reads back from its own name. |
| `Orders.Savings` | backend/models/orderModel.js:67-69 | The `savings` virtual: the total before discount minus the total after. |
| `Orders.ValidateTotals` | backend/models/orderModel.js:72-74 | `validateTotals`: the total after discount is the total before minus the discount amount. |
| `Orders.SavingsIsDiscountAmount` | backend/models/orderModel.js:66-74 | `validateTotals` holds exactly when the `savings` virtual equals the recorded discount amount. |
| `Orders.CreateOrder` | backend/models/orderModel.js:3-56 | A draft is saved exactly when it carries a customer, every line has a quantity of at least 1 and a non-negative price, and both totals are present and non-negative. Otherwise it is a validation 500. A saved order copies the draft, satisfies the schema bounds and takes the defaults: no discount, amount 0, dated now, pending. Its totals validate exactly when they are equal. |
| `DiscountService.ValidateDiscount` | backend/services/discountService.js:14-83 | A discount is valid exactly when all of these hold: it is active and inside the closed window; the minimum order is met or not positive; the total cap is not reached; the per-customer cap is unset or the looked-up count is below it; and an item_specific discount has items, one of them in the cart. A lookup failure is reported only when a per-customer cap is set. |
| `DiscountService.ValidationStopsAtFirstFailure` | backend/services/discountService.js:17-77 | Each refusal reason is returned exactly when every earlier check passed and its own check failed. The order is: inactive, not yet valid, expired, minimum order (the reason carrying the discount's minimum), total cap, failed count lookup (cap set, count unknown), per-customer cap reached, no specific items configured, no eligible line in the cart. `now` equal to either end of the window passes. |
| `DiscountService.ExpiredIsRejected` | backend/services/discountService.js:26-28 | An active stored discount whose window has closed is refused as expired, whatever the cart and usage. |
| `DiscountService.PercentOfAdditive` | backend/services/discountService.js:114 | Taking `value` percent distributes over sums. |
| `DiscountService.ItemSpecificSumIsScaledTotal` | backend/services/discountService.js:108-116 | For any scaling that distributes over sums, the line-by-line accumulation over eligible lines equals the scaling of the eligible lines' total. |
| `DiscountService.ItemSpecificSumIsShare` | backend/services/discountService.js:104-118 | The item_specific accumulation at `value` percent equals `value` percent of the total of exactly the lines whose item is one of the specific items. |
| `DiscountService.NoSpecificItemsNoEligibleLines` | backend/services/discountService.js:105 | With no specific items configured, no line is eligible, so the item_specific amount is 0. |
| `DiscountService.IneligibleLineUnaffected` | backend/services/discountService.js:110 | A line whose item is not in the list adds nothing to the eligible lines. |
| `DiscountService.EligibleTotalAtMostTotal` | backend/services/discountService.js:104-118 | The eligible lines total between 0 and the whole cart. |
| `DiscountService.RawAmount` | backend/services/discountService.js:95-122 | The amount by type before the clamp: a percentage of the total, the fixed value capped at the total, the line-by-line item_specific sum (0 with no items), and 0 for any other type. Its meaning is stated by `ItemSpecificRawAmount`, `PercentageRawWithinTotal` and `RawAmountNonNegative`. |
| `DiscountService.ItemSpecificRawAmount` | backend/services/discountService.js:104-118 | Before the clamp, an item_specific discount is `value` percent of the eligible lines' total. This holds whether or not the item list is empty. |
| `DiscountService.PercentageRawWithinTotal` | backend/services/discountService.js:96-98 | A percentage of at most 100 of a non-negative total lies between 0 and the total. |
| `DiscountService.RawAmountNonNegative` | backend/services/discountService.js:95-122 | With a non-negative value, total and lines, no discount type yields a negative amount before the clamp. |
| `DiscountService.CalculateDiscountAmount` | backend/services/discountService.js:92-126 | The amount never exceeds the total. Fixed gives the smaller of value and total. Percentage gives the smaller of `value` percent of the total and the total, for every value and total, and exactly `value` percent when the total is non-negative and the value lies between 0 and 100. item_specific gives the smaller of the eligible share and the total. An unrecognised type gives the smaller of 0 and the total, which is 0 on a non-negative total. The amount is non-negative for non-negative inputs. |
| `DiscountService.ApplyDiscountToCartAsWritten` | backend/services/discountService.js:179-218 | Refused exactly when validation refuses, with validation's reason, amount 0 and the unchanged total. When applied, each field is in whole cents and within half a cent of its unrounded value: the calculated amount, the lines' sum, and that sum minus the calculated amount. The rounded total after discount is therefore only within one cent of before minus amount. |
| `DiscountService.ApplyDiscountToCart` | backend/services/discountService.js:179-218 | Refused exactly when validation refuses, with validation's reason, amount 0 and the unchanged total. When applied, all three fields are whole cents, the amount is within half a cent of the calculated amount, after equals before minus amount exactly, the amount is at most the total before, and the total before is within half a cent of the lines' sum. |
| `DiscountService.ListingQueryAgreesWithModel` | backend/services/discountService.js:138-146 | The listing's query selects exactly the discounts for which `is_currently_valid` and `hasUsageRemaining` hold. |
| `DiscountService.GetAvailableDiscounts` | backend/services/discountService.js:133-170 | The listing fails with "Error fetching available discounts" exactly when a count lookup it needs fails. Otherwise every listed discount comes from the input and is active, inside its window, under its total cap and under the customer's cap. Every such input discount is listed. |
| `DiscountService.AvailableAgreesWithValidation` | backend/services/discountService.js:14-170 | A listed discount is refused by validation only for the cart's total or items. When the minimum order is met, a discount is listed exactly when validation accepts it or refuses it only over the items. |
| `CartController.FindIndex` | backend/controllers/cartController.js:13-15 | The index found is the first line for the item, or -1 exactly when no line holds it. |
| `CartController.SaveCart` | backend/models/cartModel.js:16-20 | A cart saves exactly when every line has a quantity of at least 1, and is then unchanged. |
| `CartController.AddToCart` | backend/controllers/cartController.js:4-28 | The cart is saved exactly when every line of the `AddLine` merge has quantity at least 1; otherwise the answer is the validation 500. A saved cart's lines are that merge. Its owner, discount and totals are those of the existing cart, or of a fresh empty one. Adding at least one unit to a valid cart always saves. |
| `CartController.AddLine` | backend/controllers/cartController.js:13-21 | The merge: the first line for the item gains `quantity`, or a new line is pushed. Its meaning is stated by the `Add…` lemmas below. |
| `CartController.AddMergesExisting` | backend/controllers/cartController.js:17-18 | An item already in the cart gains `quantity` on its line. No line is added and every other line stays. |
| `CartController.AddAppendsNew` | backend/controllers/cartController.js:19-21 | An item not in the cart is appended as one new line with the given quantity, after the unchanged lines. |
| `CartController.AddKeepsItemsUnique` | backend/controllers/cartController.js:13-21 | Adding keeps at most one line per menu item. |
| `CartController.AddGrowsQuantityBy` | backend/controllers/cartController.js:13-21 | Adding grows the sum of quantities by exactly `quantity`. |
| `CartController.AddCreatesMissingCart` | backend/controllers/cartController.js:9-11 | With no cart yet, adding creates the user's empty cart with default totals, holding just the new line. |
| `CartController.RemoveFromCart` | backend/controllers/cartController.js:42-58 | With no cart the result is the 404 "Cart not found", and only then. Otherwise the lines are the filter `Without` of the cart's lines, no remaining line is for the item, and only the lines change. Removing from a valid cart always saves. |
| `CartController.Without` | backend/controllers/cartController.js:49-51 | The filter keeps the lines of every other item, in order, and never lengthens the cart. Its meaning is stated by the `Without…` lemmas below. |
| `CartController.WithoutMembership` | backend/controllers/cartController.js:49-51 | A line survives the filter exactly when it was in the cart and is for another item. |
| `CartController.WithoutDropsItem` | backend/controllers/cartController.js:49-51 | No line for the removed item survives the filter. |
| `CartController.WithoutKeepsValid` | backend/controllers/cartController.js:49-53 | Filtering keeps every line's quantity at least 1, so the save succeeds. |
| `CartController.WithoutConcat` | backend/controllers/cartController.js:49-51 | Filtering keeps the original order: filtering two runs joined is joining their filtered runs. |
| `CartController.WithoutAbsent` | backend/controllers/cartController.js:49-51 | Filtering out an item the cart does not hold leaves the lines unchanged. |
| `CartController.RemoveUndoesAddOfNewItem` | backend/controllers/cartController.js:13-51 | Adding a new item and then removing it gives back the original lines. |
| `CartController.AddKeepsStaleDiscount` | backend/controllers/cartController.js:13-23 | Adding a line keeps the applied discount and the old stored total, while the lines' sum has changed. |
| `DiscountController.CreateDiscount` | backend/controllers/discountController.js:37-102 | The handler refuses, in order and each with its own 400 message: a missing required field, a type outside the three, dates out of order, and an item_specific request with no items. A request past those checks is stored exactly when its record passes the schema, and gets the 500 "Error creating discount" otherwise. A stored discount passes the schema and copies the request's fields, description, minimum order and active flag included. It has 0 uses; the description defaults to empty, the minimum order to 0 and the active flag to true. Its item list is empty unless it is item_specific, and non-empty when it is. |
| `DiscountController.CreateRejectsItemSpecificWithoutItems` | backend/controllers/discountController.js:75-79 | An item_specific request with no items, or with an empty list, is refused with the items-required 400 once the earlier checks pass. |
| `DiscountController.CreateAcceptsWellFormedInput` | backend/controllers/discountController.js:81-93 | A request that passes the handler's checks and meets the schema's bounds is stored with the defaults filled in. |
| `DiscountController.UpdateDiscount` | backend/controllers/discountController.js:105-159 | An unknown id gives the 404 "Discount not found". Merged dates out of order give the date-order 400. For a stored discount the update is saved exactly when the merged record passes the schema; with the dates in order, a merged record that fails it gives the 500 "Error updating discount". A saved update passes the schema, and each field is the supplied value if one was given and the stored value otherwise. |
| `DiscountController.Merge` | backend/controllers/discountController.js:137-148 | Each supplied field overwrites the stored one and the others stay; `UpdatedOnlySupplied` in the contract of `UpdateDiscount` states this field by field. |
| `DiscountController.EmptyUpdateIsIdentity` | backend/controllers/discountController.js:137-150 | An update that supplies no field saves a stored valid discount unchanged. |
| `DiscountController.UpdateAllowsItemSpecificWithoutItems` | backend/controllers/discountController.js:127-150 | An update may switch a discount to item_specific with no items, because the handler does not repeat the check that create makes. |
| `DiscountController.CheckApplyRequest` | backend/controllers/discountController.js:203-218 | A request with neither a code nor an id is refused with "Discount ID or code is required", and only then. A request with a code or id but a missing or empty cart is refused with "Cart is empty". A request that passes hands on the code, preferred over the id, and the cart's non-empty lines. |
| `OrderController.PlaceOrderAsWritten` | backend/controllers/orderController.js:5-35 | A missing or empty cart gives "Cart is empty". Any other cart fails the order's save, because the built document lacks the required paths. No placement ever succeeds. |
| `OrderController.PlaceOrder` | backend/controllers/orderController.js:5-35 | A missing or empty cart gives "Cart is empty". A non-empty cart with valid non-negative lines is placed. The order's lines are the cart's lines with their prices. Both totals are the lines' sum, so the totals validate. The order carries no discount, is pending and is dated now. Afterwards the cart is emptied and its other fields are kept. |
| `OrderController.UpdateOrderStatus` | backend/controllers/orderController.js:58-73 | An unknown id gives "Order not found", and only then. A status outside the enum fails the save. Otherwise the order gets the new status and nothing else about it changes. |
| `Scenarios.TestCartTotals` | backend/tests/discountSystem.test.js:95-99 | Two lattes at 4.99 and a croissant at 3.50 total 13.48. |
| `Scenarios.TestDiscountsAreValid` | backend/tests/discountSystem.test.js:34-77 | The four discounts the tests create pass the schema. |
| `Scenarios.ValidationScenarios` | backend/tests/discountSystem.test.js:91-133 | The 10% discount is valid on 13.48, the expired one is refused as expired, and the 5.00 minimum refuses a 3.50 cart. |
| `Scenarios.PerCustomerCapScenario` | backend/services/discountService.js:44-56 | With a per-customer cap of 2, a customer with two such orders is refused, one with one order is accepted, and a failed lookup is a validation error. |
| `Scenarios.CalculationScenarios` | backend/tests/discountSystem.test.js:135-174 | 10% of 13.48 is 1.348 (1.35 in cents). The fixed discount gives 2.00. 20% off the lattes gives 1.996 (2.00 in cents). |
| `Scenarios.ApplicationScenario` | backend/tests/discountSystem.test.js:176-201 | Applying the 10% discount to the test cart, as the service is written, gives 1.35 off 13.48, leaving 12.13; the corrected application gives the same. |
| `Scenarios.AvailableListingScenario` | backend/tests/discountSystem.test.js:203-218 | The listing keeps the three live discounts in order and leaves out the expired one. |
| `Scenarios.RoundedTriadCounterexample` | backend/services/discountService.js:210-218 | 25% off a 4.50 cart is shown as 1.13 off 4.50 leaving 3.38, which is not 4.50 - 1.13. The corrected application leaves 3.37. |

## Left out

- The service method `applyDiscountByCodeOrId` is not part of this model. The controller's `applyDiscountToCart` calls it at backend/controllers/discountController.js:221, but the service does not define it. Only the controller's checks before that call are modelled (`DiscountController.CheckApplyRequest`). The discount lookup and the response built after the call are not modelled.
- The discount `code` field is not modelled: its uniqueness, upper-casing and 50-character limit. Nothing in the pricing rules reads it.
- Dangling menu-item references are not modelled. A cart line stores a bare menu-item id: backend/controllers/cartController.js:20 pushes the requested id unchecked. When that item does not exist, `populate` yields null and reading `item.menuItem.price` throws. In `applyDiscountToCart` (backend/services/discountService.js:183) the throw lands in the `catch` branch at lines 219-226, giving amount 0, total after 0 and "Error applying discount". In `placeOrder` (backend/controllers/orderController.js:15) it ends in a 500. A model cart line always carries a `MenuItem`, so neither path is represented, and that `catch` branch is not modelled.
- Cart quantities and the discount counters (`max_uses`, `max_uses_per_customer`, `current_uses`) are integers in the model. The schemas declare them as plain Numbers (backend/models/cartModel.js:16-20, backend/models/Discount.js:46-55), so a fractional quantity such as 1.5 passes `min: 1` in the source but cannot be expressed here.
- `OrderController.UpdateOrderStatus`: the status is always a supplied string. A request without `status` sets the path to undefined (backend/controllers/orderController.js:66); Mongoose runs no enum validator on an undefined value, so that save succeeds and the order loses its status. The model's order always has a status, so this case is not represented.
- The amount in the minimum-order reason string is kept as a number (`BelowMinimum(minimum)`). How JavaScript renders it into the message is not modelled.
- JavaScript floating point is not modelled: money is exact, so results such as 13.48 × 0.1 are exact rather than the nearest double.
- Falsy-but-present inputs are not modelled. Examples are a timestamp of 0 or an empty string for a date in `updateDiscount`, which the source's `||` would replace with the stored value. A supplied field is always a real value.
- The concurrent race on `current_uses` is not modelled: the model is sequential.
- The clock (`new Date()`) is not read; the current time is a parameter.
- Mongoose queries, `populate`, the field projection the listing handler applies to its response, and Express plumbing are not modelled. Lookups are parameters, and responses are `Result` values.
- The handlers `getCart`, `getAllDiscounts`, `getDiscount`, `deleteDiscount`, `getUserOrders`, `getAllOrders`, the menu handlers and the auth handlers are not modelled. They only read or delete documents, or belong to authentication, and hold no pricing rule.
- The frontend, the route files and both server files are presentation or HTTP wiring, and are not part of this model.

## Findings

| source | as written | input that shows it | evidently intended | confidence | as-written member | corrected member |
|---|---|---|---|---|---|---|
| backend/services/discountService.js:210-218 | The total after discount is computed unrounded and then each of the three fields is rounded to cents on its own. | 25% off one 4.50 item: the amount 1.125 is shown as 1.13 and the total after 3.375 as 3.38, but 4.50 - 1.13 = 3.37. | The three returned values agree, after = before - amount in cents, because the cart page shows them together as subtotal, discount and total (frontend/src/pages/Cart.jsx:237-249). The test at backend/tests/discountSystem.test.js:197-200 accepts a gap under one cent, so this reading of intent rests on how the values are shown. | not executed; proved in the model | `DiscountService.ApplyDiscountToCartAsWritten` | `DiscountService.ApplyDiscountToCart` |
| backend/controllers/orderController.js:19-23 | The order is built as `{ user, items: cart.items, totalPrice }`. The schema has no `user` or `totalPrice` path and requires `customer`, a price on every line, `total_before_discount` and `total_after_discount`. | Any non-empty cart: the save is rejected, so no order is placed and the cart is not emptied. | The order is built under the schema's names: customer, priced lines, and the computed total as both totals. It is saved, and the cart is emptied. | not executed; proved in the model | `OrderController.PlaceOrderAsWritten` | `OrderController.PlaceOrder` |

=== FILE: api.dfy ===
/** The error answers the Express handlers of the backend send. */
module Api {

  datatype ApiError =
    | BadRequest(message: string)   // status 400
    | NotFound(message: string)     // status 404
    | ServerError(message: string)  // status 500, the handler's catch block

  /** Stands for the message Mongoose puts on a document that fails its schema validators. */
  const ValidationFailed := "validation failed"

  /** The 400 both the apply handler and order placement send for a missing or empty cart. */
  const EmptyCartMessage := "Cart is empty"
}

=== FILE: cart_controller.dfy ===
/**
 * The cart handlers of backend/controllers/cartController.js as state
 * transitions on the caller's cart. Neither handler touches the applied
 * discount or the stored totals.
 */
module CartController {
  import opened Wrappers
  import opened Api
  import opened Catalog
  import opened Carts

  /** `findIndex` on the cart lines by menu item id: the first match, or -1. */
  function FindIndex(items: seq<CartLine>, id: ItemId): (k: int)
    ensures -1 <= k < |items|
    ensures k == -1 <==> forall i :: 0 <= i < |items| ==> items[i].menuItem.id != id
    ensures 0 <= k ==> items[k].menuItem.id == id && forall i :: 0 <= i < k ==> items[i].menuItem.id != id
  {
    if |items| == 0 then -1
    else if items[0].menuItem.id == id then 0
    else
      var k := FindIndex(items[1..], id);
      if k == -1 then -1 else k + 1
  }

  /** The merge: a line already holding the item gains `quantity`, otherwise a new line is pushed. */
  function AddLine(items: seq<CartLine>, m: MenuItem, quantity: int): seq<CartLine>
  {
    var k := FindIndex(items, m.id);
    if k > -1 then items[k := items[k].(quantity := items[k].quantity + quantity)]
    else items + [CartLine(m, quantity)]
  }

  /** `cart.save()`: the schema rejects a line whose quantity is below 1. */
  function SaveCart(c: Cart): (r: Result<Cart, ApiError>)
    ensures r.Success? <==> LinesValid(c.items)
    ensures r.Success? ==> r.value == c
  {
    if LinesValid(c.items) then Success(c) else Failure(ServerError(ValidationFailed))
  }

  /**
   * `addToCart`: a missing cart is created empty for the user, the line is
   * merged or pushed, and the cart saved.
   */
  function AddToCart(cart: Option<Cart>, user: UserId, m: MenuItem, quantity: int): (r: Result<Cart, ApiError>)
    ensures r.Success? <==> LinesValid(AddLine(cart.GetOr(NewCart(user)).items, m, quantity))
    ensures r.Failure? ==> r.error == ServerError(ValidationFailed)
    ensures r.Success? ==> LinesValid(r.value.items)
    ensures r.Success? ==> r.value == cart.GetOr(NewCart(user)).(items := r.value.items)
    ensures r.Success? ==> r.value.items == AddLine(cart.GetOr(NewCart(user)).items, m, quantity)
    ensures cart.Some? && LinesValid(cart.value.items) && quantity >= 1 ==> r.Success?
  {
    var c := cart.GetOr(NewCart(user));
    SaveCart(c.(items := AddLine(c.items, m, quantity)))
  }

  /** At most one line per menu item. */
  predicate UniqueItems(items: seq<CartLine>) {
    forall i, j :: 0 <= i < j < |items| ==> items[i].menuItem.id != items[j].menuItem.id
  }

  /** The sum of the line quantities. */
  function QuantitySum(items: seq<CartLine>): int
  {
    if |items| == 0 then 0 else QuantitySum(items[..|items| - 1]) + items[|items| - 1].quantity
  }

  /** Replacing one line changes the quantity sum by the difference of the two quantities. */
  lemma {:induction false} QuantitySumUpdate(items: seq<CartLine>, k: int, l: CartLine)
    requires 0 <= k < |items|
    ensures QuantitySum(items[k := l]) == QuantitySum(items) - items[k].quantity + l.quantity
    decreases |items|
  {
    var n := |items| - 1;
    var updated := items[k := l];
    if k == n {
      assert updated[..n] == items[..n];
    } else {
      assert updated[..n] == items[..n][k := l];
      QuantitySumUpdate(items[..n], k, l);
    }
  }

  /** An id already in the cart: its line gains `quantity`, no line is added and every other line stays. */
  lemma AddMergesExisting(items: seq<CartLine>, m: MenuItem, quantity: int, k: int)
    requires 0 <= k < |items| && items[k].menuItem.id == m.id
    requires UniqueItems(items)
    ensures |AddLine(items, m, quantity)| == |items|
    ensures AddLine(items, m, quantity)[k] == items[k].(quantity := items[k].quantity + quantity)
    ensures forall i :: 0 <= i < |items| && i != k ==> AddLine(items, m, quantity)[i] == items[i]
  {
    assert FindIndex(items, m.id) == k;
  }

  /** A new id: exactly one line is appended, holding the given quantity. */
  lemma AddAppendsNew(items: seq<CartLine>, m: MenuItem, quantity: int)
    requires forall i :: 0 <= i < |items| ==> items[i].menuItem.id != m.id
    ensures AddLine(items, m, quantity) == items + [CartLine(m, quantity)]
  {
  }

  /** Adding keeps at most one line per menu item. */
  lemma AddKeepsItemsUnique(items: seq<CartLine>, m: MenuItem, quantity: int)
    requires UniqueItems(items)
    ensures UniqueItems(AddLine(items, m, quantity))
  {
    var k := FindIndex(items, m.id);
    var r := AddLine(items, m, quantity);
    if k > -1 {
      assert forall i :: 0 <= i < |r| ==> r[i].menuItem.id == items[i].menuItem.id;
    } else {
      assert forall i :: 0 <= i < |items| ==> r[i] == items[i];
    }
  }

  /** Adding grows the quantity sum by exactly `quantity`, merged or appended. */
  lemma AddGrowsQuantityBy(items: seq<CartLine>, m: MenuItem, quantity: int)
    ensures QuantitySum(AddLine(items, m, quantity)) == QuantitySum(items) + quantity
  {
    var k := FindIndex(items, m.id);
    if k > -1 {
      QuantitySumUpdate(items, k, items[k].(quantity := items[k].quantity + quantity));
    } else {
      var r := items + [CartLine(m, quantity)];
      assert r[..|r| - 1] == items;
    }
  }

  /** With no cart yet, adding creates the user's cart holding just the new line. */
  lemma AddCreatesMissingCart(user: UserId, m: MenuItem, quantity: int)
    requires quantity >= 1
    ensures AddToCart(None, user, m, quantity) == Success(NewCart(user).(items := [CartLine(m, quantity)]))
  {
    var items := [CartLine(m, quantity)];
    assert FindIndex(NewCart(user).items, m.id) == -1;
    assert AddLine(NewCart(user).items, m, quantity) == [] + items == items;
    assert LinesValid(items);
  }

  /** Lines kept by `removeFromCart`: those of any other menu item, in their original order. */
  function Without(items: seq<CartLine>, id: ItemId): (r: seq<CartLine>)
    ensures |r| <= |items|
  {
    if |items| == 0 then []
    else
      var last := items[|items| - 1];
      Without(items[..|items| - 1], id) + (if last.menuItem.id != id then [last] else [])
  }

  /**
   * `removeFromCart`: with no cart, "Cart not found"; otherwise every line of
   * the item is filtered out and the cart saved.
   */
  function RemoveFromCart(cart: Option<Cart>, id: ItemId): (r: Result<Cart, ApiError>)
    ensures cart.None? <==> r == Failure(NotFound("Cart not found"))
    ensures r.Success? ==> cart.Some? && r.value == cart.value.(items := r.value.items)
    ensures r.Success? ==> r.value.items == Without(cart.value.items, id)
    ensures r.Success? ==> forall i :: 0 <= i < |r.value.items| ==> r.value.items[i].menuItem.id != id
    ensures cart.Some? && LinesValid(cart.value.items) ==> r.Success?
  {
    match cart
    case None => Failure(NotFound("Cart not found"))
    case Some(c) =>
      WithoutDropsItem(c.items, id);
      assert LinesValid(c.items) ==> LinesValid(Without(c.items, id)) by {
        if LinesValid(c.items) {
          WithoutKeepsValid(c.items, id);
        }
      }
      SaveCart(c.(items := Without(c.items, id)))
  }

  /** A line survives the filter exactly when it was in the cart and is for another item. */
  lemma {:induction false} WithoutMembership(items: seq<CartLine>, id: ItemId, l: CartLine)
    ensures l in Without(items, id) <==> l in items && l.menuItem.id != id
  {
    if |items| > 0 {
      var prefix := items[..|items| - 1];
      WithoutMembership(prefix, id, l);
      assert items == prefix + [items[|items| - 1]];
    }
  }

  lemma WithoutDropsItem(items: seq<CartLine>, id: ItemId)
    ensures forall i :: 0 <= i < |Without(items, id)| ==> Without(items, id)[i].menuItem.id != id
  {
    forall i | 0 <= i < |Without(items, id)|
      ensures Without(items, id)[i].menuItem.id != id
    {
      WithoutMembership(items, id, Without(items, id)[i]);
    }
  }

  lemma WithoutKeepsValid(items: seq<CartLine>, id: ItemId)
    requires LinesValid(items)
    ensures LinesValid(Without(items, id))
  {
    forall i | 0 <= i < |Without(items, id)|
      ensures Without(items, id)[i].quantity >= 1
    {
      WithoutMembership(items, id, Without(items, id)[i]);
    }
  }

  /** The filter keeps the original order: filtering two runs is filtering each and joining them. */
  lemma {:induction false} WithoutConcat(a: seq<CartLine>, b: seq<CartLine>, id: ItemId)
    ensures Without(a + b, id) == Without(a, id) + Without(b, id)
    decreases |b|
  {
    if |b| == 0 {
      assert a + b == a;
    } else {
      var b' := b[..|b| - 1];
      assert (a + b)[..|a + b| - 1] == a + b';
      assert (a + b)[|a + b| - 1] == b[|b| - 1];
      WithoutConcat(a, b', id);
    }
  }

  /** Filtering out an item the cart does not hold changes nothing. */
  lemma {:induction false} WithoutAbsent(items: seq<CartLine>, id: ItemId)
    requires forall i :: 0 <= i < |items| ==> items[i].menuItem.id != id
    ensures Without(items, id) == items
  {
    if |items| > 0 {
      WithoutAbsent(items[..|items| - 1], id);
    }
  }

  /** Adding a new item and then removing it gives back the original lines. */
  lemma RemoveUndoesAddOfNewItem(items: seq<CartLine>, m: MenuItem, quantity: int)
    requires forall i :: 0 <= i < |items| ==> items[i].menuItem.id != m.id
    ensures Without(AddLine(items, m, quantity), m.id) == items
  {
    var r := items + [CartLine(m, quantity)];
    assert r[..|r| - 1] == items;
    WithoutAbsent(items, m.id);
  }

  /**
   * Changing the lines leaves an applied discount and the stored totals as
   * they were: a cart whose discount was applied to one latte still claims
   * that discount, and the old totals, after a second latte is added.
   */
  lemma AddKeepsStaleDiscount()
    ensures var latte := MenuItem("latte", 4.99);
      var c := Cart("u1", [CartLine(latte, 1)], Some("d1"), 4.99, 1.0, 3.99);
      var r := AddToCart(Some(c), "u1", latte, 1);
      && r.Success?
      && r.value.appliedDiscount == Some("d1")
      && r.value.totalBeforeDiscount == 4.99
      && Total(r.value.items) == 9.98
  {
    var latte := MenuItem("latte", 4.99);
    var items := [CartLine(latte, 2)];
    assert FindIndex([CartLine(latte, 1)], "latte") == 0;
    assert AddLine([CartLine(latte, 1)], latte, 1) == items;
    assert Total(items) == Total(items[..0]) + LineTotal(items[0]);
  }
}

=== FILE: carts.dfy ===
/** The cart document and its total bookkeeping (backend/models/cartModel.js). */
module Carts {
  import opened Wrappers
  import opened Catalog
  import opened Discounts

  /** One line of a cart, with its menu item populated. */
  datatype CartLine = CartLine(menuItem: MenuItem, quantity: int)

  /** A customer's cart: its lines plus the applied discount and the totals triad. */
  datatype Cart = Cart(
    user: UserId,
    items: seq<CartLine>,
    appliedDiscount: Option<DiscountId>,
    totalBeforeDiscount: real,
    discountAmount: real,
    totalAfterDiscount: real
  )

  /** `new Cart({ user, items: [] })`: the schema defaults null and 0 for the rest. */
  function NewCart(user: UserId): Cart {
    Cart(user, [], None, 0.0, 0.0, 0.0)
  }

  /** The schema's `quantity: { min: 1 }`, checked on every line when the cart is saved. */
  predicate LinesValid(items: seq<CartLine>) {
    forall i :: 0 <= i < |items| ==> items[i].quantity >= 1
  }

  /** Every line has a price and a quantity that are not negative. */
  predicate NonNegativeLines(items: seq<CartLine>) {
    forall i :: 0 <= i < |items| ==> items[i].menuItem.price >= 0.0 && items[i].quantity >= 0
  }

  function LineTotal(l: CartLine): real {
    l.menuItem.price * (l.quantity as real)
  }

  lemma LineTotalNonNegative(l: CartLine)
    requires l.menuItem.price >= 0.0 && l.quantity >= 0
    ensures LineTotal(l) >= 0.0
  {
  }

  /**
   * The sum of price times quantity over the lines, accumulated from the
   * left as `reduce((total, item) => total + price * quantity, 0)` does.
   */
  function Total(items: seq<CartLine>): (t: real)
    ensures NonNegativeLines(items) ==> t >= 0.0
  {
    if |items| == 0 then 0.0
    else
      var last := items[|items| - 1];
      assert NonNegativeLines(items) ==> LineTotal(last) >= 0.0 by {
        if NonNegativeLines(items) {
          LineTotalNonNegative(last);
        }
      }
      Total(items[..|items| - 1]) + LineTotal(last)
  }

  /** The total of two runs of lines placed one after the other is the sum of their totals. */
  lemma {:induction false} TotalAppend(a: seq<CartLine>, b: seq<CartLine>)
    ensures Total(a + b) == Total(a) + Total(b)
    decreases |b|
  {
    if |b| == 0 {
      assert a + b == a;
    } else {
      var b' := b[..|b| - 1];
      assert (a + b)[..|a + b| - 1] == a + b';
      assert (a + b)[|a + b| - 1] == b[|b| - 1];
      TotalAppend(a, b');
    }
  }

  /** `calculateTotalBeforeDiscount`, the reduce written as a loop. */
  method CalculateTotalBeforeDiscount(items: seq<CartLine>) returns (total: real)
    ensures total == Total(items)
    ensures items == [] ==> total == 0.0
  {
    total := 0.0;
    var i := 0;
    while i < |items|
      invariant 0 <= i <= |items|
      invariant total == Total(items[..i])
    {
      assert items[..i + 1][..i] == items[..i];
      total := total + LineTotal(items[i]);
      i := i + 1;
    }
    assert items[..|items|] == items;
  }

  /** `clearDiscount`: drops the discount and recomputes the triad from the lines. */
  function ClearDiscount(c: Cart): (r: Cart)
    ensures r.user == c.user && r.items == c.items
    ensures r.appliedDiscount.None?
    ensures r.discountAmount == 0.0
    ensures r.totalAfterDiscount == r.totalBeforeDiscount == Total(c.items)
  {
    var before := Total(c.items);
    c.(appliedDiscount := None, discountAmount := 0.0, totalBeforeDiscount := before, totalAfterDiscount := before)
  }

  /** `applyDiscount(discount, amount)`: records the discount and subtracts the amount from the recomputed total. */
  function ApplyDiscount(c: Cart, discount: DiscountId, amount: real): (r: Cart)
    ensures r.user == c.user && r.items == c.items
    ensures r.appliedDiscount == Some(discount)
    ensures r.totalBeforeDiscount == Total(c.items)
    ensures r.discountAmount == amount
    ensures r.totalAfterDiscount + r.discountAmount == r.totalBeforeDiscount
  {
    var before := Total(c.items);
    c.(appliedDiscount := Some(discount), totalBeforeDiscount := before, discountAmount := amount,
       totalAfterDiscount := before - amount)
  }

  /** Clearing twice is clearing once. */
  lemma ClearDiscountIdempotent(c: Cart)
    ensures ClearDiscount(ClearDiscount(c)) == ClearDiscount(c)
  {
  }

  /** Clearing undoes applying: the cart ends as if the discount had never been applied. */
  lemma ClearUndoesApply(c: Cart, discount: DiscountId, amount: real)
    ensures ClearDiscount(ApplyDiscount(c, discount, amount)) == ClearDiscount(c)
  {
  }

  /** An amount no larger than the lines' total never drives the total after discount below zero. */
  lemma ApplyDiscountKeepsTotalNonNegative(c: Cart, discount: DiscountId, amount: real)
    requires 0.0 <= amount <= Total(c.items)
    ensures 0.0 <= ApplyDiscount(c, discount, amount).totalAfterDiscount <= ApplyDiscount(c, discount, amount).totalBeforeDiscount
  {
  }
}

=== FILE: catalog.dfy ===
/** Menu items as the pricing engine sees them (backend/models/MenuItem.js). */
module Catalog {

  type ItemId = string
  type UserId = string

  /** A menu item reduced to what pricing reads: its id and its price (schema minimum 0). */
  datatype MenuItem = MenuItem(id: ItemId, price: real)
}

=== FILE: discount_controller.dfy ===
/**
 * The admin input checks and the apply-request checks of
 * backend/controllers/discountController.js.
 */
module DiscountController {
  import opened Wrappers
  import opened Api
  import opened Catalog
  import opened Discounts
  import opened Carts

  const RequiredMessage := "Name, type, value, valid_from, and valid_to are required"
  const TypeMessage := "Type must be percentage, fixed, or item_specific"
  const DateOrderMessage := "Valid from date must be before valid to date"
  const ItemsRequiredMessage := "Specific items are required for item-specific discounts"

  /** A create request's body; None for a field the request leaves out. */
  datatype DiscountInput = DiscountInput(
    name: Option<string>,
    description: Option<string>,
    kind: Option<string>,
    value: Option<real>,
    minOrderValue: Option<real>,
    validFrom: Option<int>,
    validTo: Option<int>,
    maxUses: Option<int>,
    maxUsesPerCustomer: Option<int>,
    isActive: Option<bool>,
    specificItems: Option<seq<ItemId>>
  )

  /** JavaScript truthiness of an optional string: present and not empty. */
  predicate Truthy(s: Option<string>) {
    s.Some? && s.value != ""
  }

  /** The first check: the five required fields are present. */
  predicate HasRequiredFields(input: DiscountInput) {
    Truthy(input.name) && Truthy(input.kind) && input.value.Some?
    && input.validFrom.Some? && input.validTo.Some?
  }

  /** The record `Discount.create` receives, with the defaults the handler fills in. */
  function NewDiscount(id: DiscountId, input: DiscountInput): Discount
    requires HasRequiredFields(input)
  {
    var kind := ParseType(input.kind.value);
    Discount(
      id,
      input.name.value,
      input.description.GetOr(""),
      kind,
      input.value.value,
      input.minOrderValue.GetOr(0.0),
      input.validFrom.value,
      input.validTo.value,
      input.maxUses,
      input.maxUsesPerCustomer,
      input.isActive.GetOr(true),
      if kind == ItemSpecific then input.specificItems.GetOr([]) else [],
      0)
  }

  /**
   * `createDiscount`: required fields, then the type, then the date order,
   * then the item list of an item_specific discount, each refused with its
   * own 400 message; a record the schema then rejects is a 500.
   */
  function CreateDiscount(id: DiscountId, input: DiscountInput): (r: Result<Discount, ApiError>)
    ensures !HasRequiredFields(input) ==> r == Failure(BadRequest(RequiredMessage))
    ensures HasRequiredFields(input) && ParseType(input.kind.value).Unrecognised? ==>
      r == Failure(BadRequest(TypeMessage))
    ensures (HasRequiredFields(input) && !ParseType(input.kind.value).Unrecognised?
             && input.validFrom.value >= input.validTo.value) ==> r == Failure(BadRequest(DateOrderMessage))
    ensures (HasRequiredFields(input) && ParseType(input.kind.value) == ItemSpecific
             && input.validFrom.value < input.validTo.value
             && (input.specificItems.None? || |input.specificItems.value| == 0)) ==>
      r == Failure(BadRequest(ItemsRequiredMessage))
    ensures (HasRequiredFields(input) && !ParseType(input.kind.value).Unrecognised?
             && input.validFrom.value < input.validTo.value
             && !(ParseType(input.kind.value) == ItemSpecific && (input.specificItems.None? || |input.specificItems.value| == 0))) ==>
      (r.Success? <==> IsValidDiscount(NewDiscount(id, input)))
    ensures (HasRequiredFields(input) && !ParseType(input.kind.value).Unrecognised?
             && input.validFrom.value < input.validTo.value
             && !(ParseType(input.kind.value) == ItemSpecific && (input.specificItems.None? || |input.specificItems.value| == 0))
             && !IsValidDiscount(NewDiscount(id, input))) ==>
      r == Failure(ServerError("Error creating discount"))
    ensures r.Success? ==> r.value == NewDiscount(id, input)
    ensures r.Success? ==>
      && IsValidDiscount(r.value)
      && r.value.id == id
      && Some(r.value.name) == input.name
      && Some(TypeName(r.value.kind)) == input.kind
      && Some(r.value.value) == input.value
      && Some(r.value.validFrom) == input.validFrom
      && Some(r.value.validTo) == input.validTo
      && r.value.maxUses == input.maxUses
      && r.value.maxUsesPerCustomer == input.maxUsesPerCustomer
      && r.value.currentUses == 0
      && r.value.description == input.description.GetOr("")
      && r.value.minOrderValue == input.minOrderValue.GetOr(0.0)
      && r.value.isActive == input.isActive.GetOr(true)
      && (r.value.kind != ItemSpecific ==> r.value.specificItems == [])
      && (r.value.kind == ItemSpecific ==> r.value.specificItems != [] && Some(r.value.specificItems) == input.specificItems)
  {
    if !HasRequiredFields(input) then Failure(BadRequest(RequiredMessage))
    else
      var kind := ParseType(input.kind.value);
      if kind.Unrecognised? then Failure(BadRequest(TypeMessage))
      else if input.validFrom.value >= input.validTo.value then Failure(BadRequest(DateOrderMessage))
      else if kind == ItemSpecific && (input.specificItems.None? || |input.specificItems.value| == 0) then
        Failure(BadRequest(ItemsRequiredMessage))
      else
        var d := NewDiscount(id, input);
        if IsValidDiscount(d) then Success(d) else Failure(ServerError("Error creating discount"))
  }

  /** An item_specific request with no items, or an empty list, is refused once the earlier checks pass. */
  lemma CreateRejectsItemSpecificWithoutItems(id: DiscountId, input: DiscountInput)
    requires HasRequiredFields(input) && input.kind == Some("item_specific")
    requires input.validFrom.value < input.validTo.value
    requires input.specificItems.None? || input.specificItems == Some([])
    ensures CreateDiscount(id, input) == Failure(BadRequest(ItemsRequiredMessage))
  {
  }

  /**
   * A request that passes the handler's own checks and whose values meet the
   * schema's bounds is stored.
   */
  lemma CreateAcceptsWellFormedInput(id: DiscountId, input: DiscountInput)
    requires HasRequiredFields(input) && !ParseType(input.kind.value).Unrecognised?
    requires input.validFrom.value < input.validTo.value
    requires ParseType(input.kind.value) == ItemSpecific ==> input.specificItems.Some? && |input.specificItems.value| > 0
    requires Utf16Length(input.name.value) <= MaxNameLength && input.value.value >= 0.0
    requires input.minOrderValue.GetOr(0.0) >= 0.0
    requires input.maxUses.None? || input.maxUses.value >= 1
    requires input.maxUsesPerCustomer.None? || input.maxUsesPerCustomer.value >= 1
    ensures CreateDiscount(id, input) == Success(NewDiscount(id, input))
  {
  }

  /**
   * An update request's body. A field left out is None; `maxUses` and
   * `maxUsesPerCustomer` may be supplied as null, which is Some(None).
   */
  datatype DiscountPatch = DiscountPatch(
    name: Option<string>,
    description: Option<string>,
    kind: Option<string>,
    value: Option<real>,
    minOrderValue: Option<real>,
    validFrom: Option<int>,
    validTo: Option<int>,
    maxUses: Option<Option<int>>,
    maxUsesPerCustomer: Option<Option<int>>,
    isActive: Option<bool>,
    specificItems: Option<seq<ItemId>>
  )

  /** Each supplied field overwrites the stored one; the others stay. */
  function Merge(d: Discount, p: DiscountPatch): Discount {
    d.(
      name := p.name.GetOr(d.name),
      description := p.description.GetOr(d.description),
      kind := if p.kind.Some? then ParseType(p.kind.value) else d.kind,
      value := p.value.GetOr(d.value),
      minOrderValue := p.minOrderValue.GetOr(d.minOrderValue),
      validFrom := p.validFrom.GetOr(d.validFrom),
      validTo := p.validTo.GetOr(d.validTo),
      maxUses := p.maxUses.GetOr(d.maxUses),
      maxUsesPerCustomer := p.maxUsesPerCustomer.GetOr(d.maxUsesPerCustomer),
      isActive := p.isActive.GetOr(d.isActive),
      specificItems := p.specificItems.GetOr(d.specificItems))
  }

  /**
   * `updateDiscount`: an unknown id is a 404; the date order is checked on the
   * merged old and new dates; the merged record is saved, and a record the
   * schema rejects is a 500. Type, value and the item list are not checked by
   * the handler itself.
   */
  function UpdateDiscount(stored: Option<Discount>, p: DiscountPatch): (r: Result<Discount, ApiError>)
    ensures stored.None? ==> r == Failure(NotFound("Discount not found"))
    ensures stored.Some? && p.validFrom.GetOr(stored.value.validFrom) >= p.validTo.GetOr(stored.value.validTo) ==>
      r == Failure(BadRequest(DateOrderMessage))
    ensures r.Success? ==> IsValidDiscount(r.value) && r.value.validFrom < r.value.validTo
    ensures r.Success? ==> stored.Some? && UpdatedOnlySupplied(stored.value, p, r.value)
    ensures stored.Some? ==> (r.Success? <==> IsValidDiscount(Merge(stored.value, p)))
    ensures (stored.Some? && p.validFrom.GetOr(stored.value.validFrom) < p.validTo.GetOr(stored.value.validTo)
             && !IsValidDiscount(Merge(stored.value, p))) ==> r == Failure(ServerError("Error updating discount"))
  {
    match stored
    case None => Failure(NotFound("Discount not found"))
    case Some(d) =>
      if p.validFrom.GetOr(d.validFrom) >= p.validTo.GetOr(d.validTo) then Failure(BadRequest(DateOrderMessage))
      else
        var u := Merge(d, p);
        if IsValidDiscount(u) then Success(u) else Failure(ServerError("Error updating discount"))
  }

  /** Every field of `u` is the supplied value when the patch has one, and the stored value otherwise. */
  predicate UpdatedOnlySupplied(d: Discount, p: DiscountPatch, u: Discount) {
    && u.id == d.id && u.currentUses == d.currentUses
    && (p.name.None? ==> u.name == d.name) && (p.name.Some? ==> u.name == p.name.value)
    && (p.description.None? ==> u.description == d.description)
    && (p.description.Some? ==> u.description == p.description.value)
    && (p.kind.None? ==> u.kind == d.kind) && (p.kind.Some? ==> TypeName(u.kind) == p.kind.value)
    && (p.value.None? ==> u.value == d.value) && (p.value.Some? ==> u.value == p.value.value)
    && (p.minOrderValue.None? ==> u.minOrderValue == d.minOrderValue)
    && (p.minOrderValue.Some? ==> u.minOrderValue == p.minOrderValue.value)
    && (p.validFrom.None? ==> u.validFrom == d.validFrom) && (p.validFrom.Some? ==> u.validFrom == p.validFrom.value)
    && (p.validTo.None? ==> u.validTo == d.validTo) && (p.validTo.Some? ==> u.validTo == p.validTo.value)
    && (p.maxUses.None? ==> u.maxUses == d.maxUses) && (p.maxUses.Some? ==> u.maxUses == p.maxUses.value)
    && (p.maxUsesPerCustomer.None? ==> u.maxUsesPerCustomer == d.maxUsesPerCustomer)
    && (p.maxUsesPerCustomer.Some? ==> u.maxUsesPerCustomer == p.maxUsesPerCustomer.value)
    && (p.isActive.None? ==> u.isActive == d.isActive) && (p.isActive.Some? ==> u.isActive == p.isActive.value)
    && (p.specificItems.None? ==> u.specificItems == d.specificItems)
    && (p.specificItems.Some? ==> u.specificItems == p.specificItems.value)
  }

  const EmptyPatch := DiscountPatch(None, None, None, None, None, None, None, None, None, None, None)

  /** An update that supplies nothing returns a stored, schema-valid discount unchanged. */
  lemma EmptyUpdateIsIdentity(d: Discount)
    requires IsValidDiscount(d)
    ensures UpdateDiscount(Some(d), EmptyPatch) == Success(d)
  {
  }

  /**
   * The handler does not repeat the item_specific check of create: switching
   * a stored percentage discount to item_specific with no items is saved,
   * and validation then refuses it, as `NoSpecificItems`, when it is applied
   * to a cart.
   */
  lemma UpdateAllowsItemSpecificWithoutItems(d: Discount)
    requires IsValidDiscount(d) && d.kind == Percentage && d.specificItems == []
    ensures UpdateDiscount(Some(d), EmptyPatch.(kind := Some("item_specific"))) == Success(d.(kind := ItemSpecific))
  {
  }

  const CodeRequiredMessage := "Discount ID or code is required"

  /** What an apply request hands on to the lookup: the code or id, and the cart's lines. */
  datatype ApplyRequest = ApplyRequest(codeOrId: string, items: seq<CartLine>)

  /**
   * The checks `applyDiscountToCart` makes before any discount lookup:
   * `discountCode || discountId` must be truthy, then the cart must exist and
   * hold at least one line.
   */
  function CheckApplyRequest(discountCode: Option<string>, discountId: Option<string>, cart: Option<Cart>): (r: Result<ApplyRequest, ApiError>)
    ensures !Truthy(discountCode) && !Truthy(discountId) <==> r == Failure(BadRequest(CodeRequiredMessage))
    ensures (Truthy(discountCode) || Truthy(discountId)) && (cart.None? || cart.value.items == []) ==>
      r == Failure(BadRequest(EmptyCartMessage))
    ensures r.Success? ==> cart.Some? && r.value.items == cart.value.items && r.value.items != []
    ensures r.Success? ==> Some(r.value.codeOrId) == (if Truthy(discountCode) then discountCode else discountId)
  {
    var codeOrId := if Truthy(discountCode) then discountCode else discountId;
    if !Truthy(codeOrId) then Failure(BadRequest(CodeRequiredMessage))
    else if cart.None? || |cart.value.items| == 0 then Failure(BadRequest(EmptyCartMessage))
    else Success(ApplyRequest(codeOrId.value, cart.value.items))
  }
}

=== FILE: discount_service.dfy ===
/**
 * The pricing rules of backend/services/discountService.js: validation,
 * amount calculation, application to a cart and the listing of available discounts.
 */
module DiscountService {
  import opened Wrappers
  import opened Api
  import opened Money
  import opened Catalog
  import opened Discounts
  import opened Carts

  /** Why `validateDiscount` refused; each constructor stands for one reason string. */
  datatype Reason =
    | NotActive                     // "Discount is not active"
    | NotYetValid                   // "Discount is not yet valid"
    | Expired                       // "Discount has expired"
    | BelowMinimum(minimum: real)   // "Minimum order value of $<minimum> required"
    | UsageLimitExceeded            // "Discount usage limit exceeded"
    | CustomerLimitExceeded         // "You have already used this discount the maximum number of times"
    | NoSpecificItems               // "No specific items defined for this discount"
    | NoEligibleItems               // "Cart does not contain items eligible for this discount"
    | LookupFailed                  // "Error validating discount", from the catch block

  datatype Verdict = Valid | Invalid(reason: Reason)

  /** Some line's menu item is one of the discount's specific items. */
  predicate HasEligibleItems(items: seq<CartLine>, specific: seq<ItemId>) {
    exists i :: 0 <= i < |items| && items[i].menuItem.id in specific
  }

  /** The minimum-order rule: only a positive minimum is enforced. */
  predicate MeetsMinimumOrder(d: Discount, total: real) {
    d.minOrderValue <= 0.0 || total >= d.minOrderValue
  }

  /** The item rule: an item_specific discount needs configured items and one of them in the cart. */
  predicate ItemsQualify(d: Discount, items: seq<CartLine>) {
    d.kind == ItemSpecific ==> |d.specificItems| > 0 && HasEligibleItems(items, d.specificItems)
  }

  /** The per-customer rule, given the outcome of the order-count lookup. */
  predicate CustomerMayUse(d: Discount, usage: Option<nat>) {
    d.maxUsesPerCustomer.None? || (usage.Some? && CanBeUsedByCustomer(d, usage.value))
  }

  /**
   * `validateDiscount`. The checks run in a fixed order and the first failing
   * one decides the reason. `usage` is the customer's count of orders carrying
   * this discount, None when that lookup fails; it is consulted only when a
   * per-customer cap is set.
   */
  function ValidateDiscount(d: Discount, items: seq<CartLine>, usage: Option<nat>, total: real, now: int): (v: Verdict)
    ensures v.Valid? <==>
      && IsCurrentlyValid(d, now)
      && MeetsMinimumOrder(d, total)
      && HasUsageRemaining(d)
      && CustomerMayUse(d, usage)
      && ItemsQualify(d, items)
    ensures v == Invalid(LookupFailed) ==> d.maxUsesPerCustomer.Some? && usage.None?
  {
    if !d.isActive then Invalid(NotActive)
    else if d.validFrom > now then Invalid(NotYetValid)
    else if d.validTo < now then Invalid(Expired)
    else if d.minOrderValue > 0.0 && total < d.minOrderValue then Invalid(BelowMinimum(d.minOrderValue))
    else if d.maxUses.Some? && d.currentUses >= d.maxUses.value then Invalid(UsageLimitExceeded)
    else if d.maxUsesPerCustomer.Some? && usage.None? then Invalid(LookupFailed)
    else if d.maxUsesPerCustomer.Some? && usage.value >= d.maxUsesPerCustomer.value then Invalid(CustomerLimitExceeded)
    else if d.kind == ItemSpecific && |d.specificItems| == 0 then Invalid(NoSpecificItems)
    else if d.kind == ItemSpecific && !HasEligibleItems(items, d.specificItems) then Invalid(NoEligibleItems)
    else Valid
  }

  /**
   * The order of the checks: each reason is given exactly when every earlier
   * check passed and its own failed. The window is closed at both ends.
   */
  lemma ValidationStopsAtFirstFailure(d: Discount, items: seq<CartLine>, usage: Option<nat>, total: real, now: int)
    ensures var v := ValidateDiscount(d, items, usage, total, now);
      && (v == Invalid(NotActive) <==> !d.isActive)
      && (v == Invalid(NotYetValid) <==> d.isActive && now < d.validFrom)
      && (v == Invalid(Expired) <==> d.isActive && d.validFrom <= now && d.validTo < now)
      && (v == Invalid(BelowMinimum(d.minOrderValue)) <==>
            IsCurrentlyValid(d, now) && !MeetsMinimumOrder(d, total))
      && (v.Invalid? && v.reason.BelowMinimum? ==> v.reason.minimum == d.minOrderValue)
      && (v == Invalid(UsageLimitExceeded) <==>
            IsCurrentlyValid(d, now) && MeetsMinimumOrder(d, total) && !HasUsageRemaining(d))
      && (v == Invalid(LookupFailed) <==>
            IsCurrentlyValid(d, now) && MeetsMinimumOrder(d, total) && HasUsageRemaining(d)
            && d.maxUsesPerCustomer.Some? && usage.None?)
      && (v == Invalid(CustomerLimitExceeded) <==>
            IsCurrentlyValid(d, now) && MeetsMinimumOrder(d, total) && HasUsageRemaining(d)
            && d.maxUsesPerCustomer.Some? && usage.Some? && usage.value >= d.maxUsesPerCustomer.value)
      && (v == Invalid(NoSpecificItems) <==>
            IsCurrentlyValid(d, now) && MeetsMinimumOrder(d, total) && HasUsageRemaining(d)
            && CustomerMayUse(d, usage) && d.kind == ItemSpecific && |d.specificItems| == 0)
      && (v == Invalid(NoEligibleItems) <==>
            IsCurrentlyValid(d, now) && MeetsMinimumOrder(d, total) && HasUsageRemaining(d)
            && CustomerMayUse(d, usage) && d.kind == ItemSpecific && |d.specificItems| > 0
            && !HasEligibleItems(items, d.specificItems))
  {
  }

  /** A stored discount whose window has closed is refused as expired, whatever its other fields. */
  lemma ExpiredIsRejected(d: Discount, items: seq<CartLine>, usage: Option<nat>, total: real, now: int)
    requires IsValidDiscount(d) && d.isActive && d.validTo < now
    ensures ValidateDiscount(d, items, usage, total, now) == Invalid(Expired)
  {
  }

  /** The lines whose menu item is one of the discount's specific items, in cart order. */
  function EligibleLines(items: seq<CartLine>, specific: seq<ItemId>): (r: seq<CartLine>)
    ensures |r| <= |items|
  {
    if |items| == 0 then []
    else
      var last := items[|items| - 1];
      EligibleLines(items[..|items| - 1], specific) + (if last.menuItem.id in specific then [last] else [])
  }

  /** `value` percent of an amount: what the item_specific case takes from each eligible line. */
  function PercentOf(value: real): real -> real
  {
    x => x * (value / 100.0)
  }

  /** The sum of two amounts, named so that additivity is only instantiated where a proof asks for it. */
  function Plus(a: real, b: real): real
  {
    a + b
  }

  /** A scaling that distributes over sums, as taking a fixed percentage does. */
  ghost predicate Additive(scale: real -> real)
  {
    forall a: real, b: real {:trigger scale(Plus(a, b))} :: scale(Plus(a, b)) == scale(a) + scale(b)
  }

  /** Taking a percentage distributes over sums. */
  lemma PercentOfAdditive(value: real)
    ensures Additive(PercentOf(value))
  {
    var k := value / 100.0;
    forall a: real, b: real
      ensures PercentOf(value)(Plus(a, b)) == PercentOf(value)(a) + PercentOf(value)(b)
    {
      ShareOfSum(a, b, k);
    }
  }

  /** The item_specific accumulation: `scale` of every eligible line's total, added line by line. */
  function ItemSpecificSum(items: seq<CartLine>, specific: seq<ItemId>, scale: real -> real): real
  {
    if |items| == 0 then 0.0
    else
      var last := items[|items| - 1];
      ItemSpecificSum(items[..|items| - 1], specific, scale)
        + (if last.menuItem.id in specific then scale(LineTotal(last)) else 0.0)
  }

  /** `value` percent of the eligible lines' total: the reference the accumulation is measured against. */
  function EligibleShare(items: seq<CartLine>, specific: seq<ItemId>, value: real): real
  {
    Total(EligibleLines(items, specific)) * (value / 100.0)
  }

  /** For a scaling that distributes over sums, the accumulation is the scaled total of the eligible lines. */
  lemma {:induction false} ItemSpecificSumIsScaledTotal(items: seq<CartLine>, specific: seq<ItemId>, scale: real -> real)
    requires Additive(scale)
    ensures ItemSpecificSum(items, specific, scale) == scale(Total(EligibleLines(items, specific)))
  {
    if |items| == 0 {
      assert EligibleLines(items, specific) == [];
      assert scale(Plus(0.0, 0.0)) == scale(0.0) + scale(0.0);
    } else {
      var prefix := items[..|items| - 1];
      var last := items[|items| - 1];
      ItemSpecificSumIsScaledTotal(prefix, specific, scale);
      var t := Total(EligibleLines(prefix, specific));
      if last.menuItem.id in specific {
        EligibleTotalAddsLine(items, specific);
        assert Total(EligibleLines(items, specific)) == Plus(t, LineTotal(last));
        assert scale(Plus(t, LineTotal(last))) == scale(t) + scale(LineTotal(last));
      } else {
        IneligibleLastDropped(items, specific);
      }
    }
  }

  /** The accumulation at `value` percent equals `value` percent of the eligible lines' total. */
  lemma ItemSpecificSumIsShare(items: seq<CartLine>, specific: seq<ItemId>, value: real)
    ensures ItemSpecificSum(items, specific, PercentOf(value)) == EligibleShare(items, specific, value)
  {
    PercentOfAdditive(value);
    ItemSpecificSumIsScaledTotal(items, specific, PercentOf(value));
  }

  /** An eligible last line adds its total to the eligible lines' total. */
  lemma EligibleTotalAddsLine(items: seq<CartLine>, specific: seq<ItemId>)
    requires |items| > 0 && items[|items| - 1].menuItem.id in specific
    ensures Total(EligibleLines(items, specific)) ==
      Total(EligibleLines(items[..|items| - 1], specific)) + LineTotal(items[|items| - 1])
  {
    var last := items[|items| - 1];
    TotalAppend(EligibleLines(items[..|items| - 1], specific), [last]);
    assert [last][..0] == [];
  }

  /** An ineligible last line leaves the eligible lines as they were. */
  lemma IneligibleLastDropped(items: seq<CartLine>, specific: seq<ItemId>)
    requires |items| > 0 && items[|items| - 1].menuItem.id !in specific
    ensures EligibleLines(items, specific) == EligibleLines(items[..|items| - 1], specific)
  {
    var eligible := EligibleLines(items[..|items| - 1], specific);
    assert eligible + [] == eligible;
  }

  /** With no specific items configured, no line is eligible. */
  lemma {:induction false} NoSpecificItemsNoEligibleLines(items: seq<CartLine>)
    ensures EligibleLines(items, []) == []
  {
    if |items| > 0 {
      NoSpecificItemsNoEligibleLines(items[..|items| - 1]);
    }
  }

  /** A line that is not eligible leaves the eligible lines, and so the item_specific amount, unchanged. */
  lemma IneligibleLineUnaffected(items: seq<CartLine>, specific: seq<ItemId>, l: CartLine)
    requires l.menuItem.id !in specific
    ensures EligibleLines(items + [l], specific) == EligibleLines(items, specific)
  {
    assert (items + [l])[..|items|] == items;
  }

  /** The eligible lines never total more than the whole cart. */
  lemma {:induction false} EligibleTotalAtMostTotal(items: seq<CartLine>, specific: seq<ItemId>)
    requires NonNegativeLines(items)
    ensures 0.0 <= Total(EligibleLines(items, specific)) <= Total(items)
  {
    if |items| > 0 {
      var prefix := items[..|items| - 1];
      var last := items[|items| - 1];
      assert NonNegativeLines(prefix);
      EligibleTotalAtMostTotal(prefix, specific);
      LineTotalNonNegative(last);
      if last.menuItem.id in specific {
        TotalAppend(EligibleLines(prefix, specific), [last]);
        assert Total([last]) == LineTotal(last) by {
          assert [last][..0] == [];
        }
      } else {
        assert EligibleLines(items, specific) == EligibleLines(prefix, specific);
      }
    }
  }

  /** The amount by type, before the clamp to the order total. */
  function RawAmount(d: Discount, items: seq<CartLine>, total: real): real
  {
    match d.kind
    case Percentage => total * (d.value / 100.0)
    case Fixed => Min(d.value, total)
    case ItemSpecific =>
      if |d.specificItems| > 0 then ItemSpecificSum(items, d.specificItems, PercentOf(d.value)) else 0.0
    case Unrecognised(_) => 0.0
  }

  /** The item_specific raw amount is `value` percent of the eligible lines' total. */
  lemma ItemSpecificRawAmount(d: Discount, items: seq<CartLine>, total: real)
    requires d.kind == ItemSpecific
    ensures RawAmount(d, items, total) == EligibleShare(items, d.specificItems, d.value)
  {
    if |d.specificItems| > 0 {
      ItemSpecificSumIsShare(items, d.specificItems, d.value);
    } else {
      assert d.specificItems == [];
      NoSpecificItemsNoEligibleLines(items);
    }
  }

  /** A percentage of at most 100 of a total that is not negative stays within the total. */
  lemma PercentageRawWithinTotal(d: Discount, items: seq<CartLine>, total: real)
    requires d.kind == Percentage && total >= 0.0 && 0.0 <= d.value <= 100.0
    ensures 0.0 <= RawAmount(d, items, total) <= total
  {
    var k := d.value / 100.0;
    assert RawAmount(d, items, total) == total * k;
    ShareAtMostWhole(total, k);
  }

  /** With a value and lines that are not negative, no type yields a negative raw amount. */
  lemma RawAmountNonNegative(d: Discount, items: seq<CartLine>, total: real)
    requires total >= 0.0 && d.value >= 0.0 && NonNegativeLines(items)
    ensures RawAmount(d, items, total) >= 0.0
  {
    match d.kind
    case Percentage =>
      ProductNonNegative(total, d.value / 100.0);
    case Fixed =>
    case ItemSpecific =>
      ItemSpecificRawAmount(d, items, total);
      EligibleTotalAtMostTotal(items, d.specificItems);
      ProductNonNegative(Total(EligibleLines(items, d.specificItems)), d.value / 100.0);
    case Unrecognised(_) =>
  }

  /**
   * `calculateDiscountAmount`: the raw amount by type, then clamped to the
   * order total. Percentages are of the whole total, fixed amounts are capped
   * at the total, item_specific takes `value` percent of the eligible lines
   * only, and any other type gives nothing.
   */
  function CalculateDiscountAmount(d: Discount, items: seq<CartLine>, total: real): (amount: real)
    ensures amount <= total
    ensures d.kind == Fixed ==> amount == Min(d.value, total)
    ensures d.kind == Percentage ==> amount == Min(total * (d.value / 100.0), total)
    ensures d.kind == Percentage && total >= 0.0 && 0.0 <= d.value <= 100.0 ==> amount == total * (d.value / 100.0)
    ensures d.kind == ItemSpecific ==>
      amount == Min(EligibleShare(items, d.specificItems, d.value), total)
    ensures d.kind.Unrecognised? ==> amount == Min(0.0, total)
    ensures d.kind.Unrecognised? && total >= 0.0 ==> amount == 0.0
    ensures total >= 0.0 && d.value >= 0.0 && NonNegativeLines(items) ==> amount >= 0.0
  {
    var raw := RawAmount(d, items, total);
    var eligible := EligibleShare(items, d.specificItems, d.value);
    assert d.kind == ItemSpecific ==> raw == eligible by {
      if d.kind == ItemSpecific {
        ItemSpecificRawAmount(d, items, total);
      }
    }
    assert d.kind == ItemSpecific ==> Min(raw, total) == Min(eligible, total);
    assert d.kind == Percentage && total >= 0.0 && 0.0 <= d.value <= 100.0 ==> raw <= total by {
      if d.kind == Percentage && total >= 0.0 && 0.0 <= d.value <= 100.0 {
        PercentageRawWithinTotal(d, items, total);
      }
    }
    assert total >= 0.0 && d.value >= 0.0 && NonNegativeLines(items) ==> raw >= 0.0 by {
      if total >= 0.0 && d.value >= 0.0 && NonNegativeLines(items) {
        RawAmountNonNegative(d, items, total);
      }
    }
    Min(raw, total)
  }

  /** What `applyDiscountToCart` returns: the applied triad, or a refusal with the unchanged total. */
  datatype ApplyOutcome =
    | Applied(discountAmount: real, totalBeforeDiscount: real, totalAfterDiscount: real)
    | Rejected(reason: Reason, discountAmount: real, totalAfterDiscount: real)

  /**
   * `applyDiscountToCart` as written: every field of the triad is rounded to
   * cents on its own, so the rounded total after discount may be a cent away
   * from the rounded total before minus the rounded amount.
   */
  function ApplyDiscountToCartAsWritten(d: Discount, items: seq<CartLine>, usage: Option<nat>, now: int): (r: ApplyOutcome)
    ensures r.Rejected? <==> ValidateDiscount(d, items, usage, Total(items), now).Invalid?
    ensures r.Rejected? ==>
      && r.reason == ValidateDiscount(d, items, usage, Total(items), now).reason
      && r.discountAmount == 0.0 && r.totalAfterDiscount == Total(items)
    ensures r.Applied? ==>
      && IsCents(r.discountAmount) && IsCents(r.totalBeforeDiscount) && IsCents(r.totalAfterDiscount)
      && -0.005 < r.discountAmount - CalculateDiscountAmount(d, items, Total(items)) <= 0.005
      && Total(items) - 0.005 < r.totalBeforeDiscount <= Total(items) + 0.005
      && -0.005 < r.totalAfterDiscount - (Total(items) - CalculateDiscountAmount(d, items, Total(items))) <= 0.005
    ensures r.Applied? ==>
      -0.01 <= r.totalAfterDiscount - (r.totalBeforeDiscount - r.discountAmount) <= 0.01
  {
    var total := Total(items);
    var v := ValidateDiscount(d, items, usage, total, now);
    if v.Invalid? then Rejected(v.reason, 0.0, total)
    else
      var amount := CalculateDiscountAmount(d, items, total);
      RoundedDifferenceWithinCent(total, amount);
      Applied(RoundCents(amount), RoundCents(total), RoundCents(total - amount))
  }

  /**
   * `applyDiscountToCart` with the triad kept consistent: the total and the
   * amount are rounded to cents and the total after discount is their exact
   * difference.
   */
  function ApplyDiscountToCart(d: Discount, items: seq<CartLine>, usage: Option<nat>, now: int): (r: ApplyOutcome)
    ensures r.Rejected? <==> ValidateDiscount(d, items, usage, Total(items), now).Invalid?
    ensures r.Rejected? ==>
      && r.reason == ValidateDiscount(d, items, usage, Total(items), now).reason
      && r.discountAmount == 0.0 && r.totalAfterDiscount == Total(items)
    ensures r.Applied? ==>
      && -0.005 < r.discountAmount - CalculateDiscountAmount(d, items, Total(items)) <= 0.005
      && r.totalAfterDiscount == r.totalBeforeDiscount - r.discountAmount
      && r.discountAmount <= r.totalBeforeDiscount
      && IsCents(r.discountAmount) && IsCents(r.totalBeforeDiscount) && IsCents(r.totalAfterDiscount)
      && Total(items) - 0.005 < r.totalBeforeDiscount <= Total(items) + 0.005
    ensures r.Applied? && d.value >= 0.0 && NonNegativeLines(items) ==> 0.0 <= r.discountAmount
  {
    var total := Total(items);
    var v := ValidateDiscount(d, items, usage, total, now);
    if v.Invalid? then Rejected(v.reason, 0.0, total)
    else
      var amount := CalculateDiscountAmount(d, items, total);
      var before := RoundCents(total);
      var off := RoundCents(amount);
      RoundCentsMonotone(amount, total);
      CentsDifference(before, off);
      Applied(off, before, before - off)
  }

  /**
   * The query half of `getAvailableDiscounts`: active, inside the window and,
   * when capped, used fewer times than the cap.
   */
  predicate MatchesListingQuery(d: Discount, now: int) {
    d.isActive && d.validFrom <= now && d.validTo >= now
    && (d.maxUses.None? || d.currentUses < d.maxUses.value)
  }

  /** The listing's query selects exactly the discounts the model's own predicates call valid and not used up. */
  lemma ListingQueryAgreesWithModel(d: Discount, now: int)
    ensures MatchesListingQuery(d, now) <==> IsCurrentlyValid(d, now) && HasUsageRemaining(d)
  {
  }

  /** A discount the listing shows to a customer whose lookup returned `usage`. */
  predicate Available(d: Discount, now: int, usage: Option<nat>) {
    MatchesListingQuery(d, now) && CustomerMayUse(d, usage)
  }

  /** The per-customer count is looked up for every discount the query matched that has a per-customer cap. */
  predicate NeedsLookup(d: Discount, now: int) {
    MatchesListingQuery(d, now) && d.maxUsesPerCustomer.Some?
  }

  /**
   * `getAvailableDiscounts`: the query, then the per-customer filter. A failed
   * count lookup makes the whole listing fail.
   */
  function GetAvailableDiscounts(ds: seq<Discount>, now: int, usageOf: DiscountId -> Option<nat>): (r: Result<seq<Discount>, ApiError>)
    ensures r.Failure? <==> exists i :: 0 <= i < |ds| && NeedsLookup(ds[i], now) && usageOf(ds[i].id).None?
    ensures r.Failure? ==> r.error == ServerError("Error fetching available discounts")
    ensures r.Success? ==> |r.value| <= |ds|
    ensures r.Success? ==> forall i :: 0 <= i < |r.value| ==>
      r.value[i] in ds && Available(r.value[i], now, usageOf(r.value[i].id))
    ensures r.Success? ==> forall i :: 0 <= i < |ds| && Available(ds[i], now, usageOf(ds[i].id)) ==> ds[i] in r.value
  {
    if |ds| == 0 then Success([])
    else
      var d := ds[0];
      var rest := GetAvailableDiscounts(ds[1..], now, usageOf);
      assert forall i :: 1 <= i < |ds| ==> ds[i] == ds[1..][i - 1];
      if NeedsLookup(d, now) && usageOf(d.id).None? then Failure(ServerError("Error fetching available discounts"))
      else if rest.Failure? then rest
      else if Available(d, now, usageOf(d.id)) then Success([d] + rest.value)
      else rest
  }

  /**
   * What the listing shows is what validation would accept up to the
   * cart-dependent rules: an available discount is refused, if at all, only
   * for the cart's total or items; and when the minimum order is met (the
   * one cart rule checked before the usage caps) a discount is available
   * exactly when validation refuses it for no other reason.
   */
  lemma AvailableAgreesWithValidation(d: Discount, items: seq<CartLine>, usage: Option<nat>, total: real, now: int)
    ensures var v := ValidateDiscount(d, items, usage, total, now);
      Available(d, now, usage) ==>
        (v.Valid? || v.reason.BelowMinimum? || v.reason == NoSpecificItems || v.reason == NoEligibleItems)
    ensures var v := ValidateDiscount(d, items, usage, total, now);
      MeetsMinimumOrder(d, total) ==>
        (Available(d, now, usage) <==> v.Valid? || v.reason == NoSpecificItems || v.reason == NoEligibleItems)
  {
    ValidationStopsAtFirstFailure(d, items, usage, total, now);
    ListingQueryAgreesWithModel(d, now);
  }
}

=== FILE: discounts.dfy ===
/** The Discount record and its model-level predicates (backend/models/Discount.js). */
module Discounts {
  import opened Wrappers
  import opened Catalog

  type DiscountId = string

  /**
   * The `type` field. The schema admits the first three; the amount
   * calculator still has a branch for any other string, kept as Unrecognised.
   */
  datatype DiscountType = Percentage | Fixed | ItemSpecific | Unrecognised(tag: string)

  function TypeName(t: DiscountType): string {
    match t
    case Percentage => "percentage"
    case Fixed => "fixed"
    case ItemSpecific => "item_specific"
    case Unrecognised(tag) => tag
  }

  /** Reads the string a request supplies for `type`. */
  function ParseType(s: string): (t: DiscountType)
    ensures TypeName(t) == s
    ensures t.Unrecognised? <==> s !in {"percentage", "fixed", "item_specific"}
  {
    if s == "percentage" then Percentage
    else if s == "fixed" then Fixed
    else if s == "item_specific" then ItemSpecific
    else Unrecognised(s)
  }

  /** Naming one of the three schema types and reading it back gives the same type. */
  lemma ParseTypeName(t: DiscountType)
    requires !t.Unrecognised?
    ensures ParseType(TypeName(t)) == t
  {
  }

  /** A stored discount; `maxUses` and `maxUsesPerCustomer` are None when unlimited (null). */
  datatype Discount = Discount(
    id: DiscountId,
    name: string,
    description: string,
    kind: DiscountType,
    value: real,
    minOrderValue: real,
    validFrom: int,
    validTo: int,
    maxUses: Option<int>,
    maxUsesPerCustomer: Option<int>,
    isActive: bool,
    specificItems: seq<ItemId>,
    currentUses: int
  )

  const MaxNameLength := 255

  /**
   * The length of a string as JavaScript counts it, in UTF-16 code units: a
   * character outside the Basic Multilingual Plane takes a surrogate pair.
   */
  function Utf16Length(s: string): nat
  {
    if |s| == 0 then 0
    else Utf16Length(s[..|s| - 1]) + (if s[|s| - 1] as int >= 0x1_0000 then 2 else 1)
  }

  /** Every character takes one or two code units. */
  lemma {:induction false} Utf16LengthBounds(s: string)
    ensures |s| <= Utf16Length(s) <= 2 * |s|
    ensures (forall i :: 0 <= i < |s| ==> s[i] as int < 0x1_0000) ==> Utf16Length(s) == |s|
  {
    if |s| > 0 {
      Utf16LengthBounds(s[..|s| - 1]);
    }
  }

  /**
   * The schema's validators, run by `create` and `save`: name required and at
   * most 255 UTF-16 code units long, type in the enum, value and minimum order value not
   * negative, both usage caps null or at least 1, and the document-level
   * check that the window opens before it closes.
   */
  predicate IsValidDiscount(d: Discount) {
    && d.name != "" && Utf16Length(d.name) <= MaxNameLength
    && !d.kind.Unrecognised?
    && d.value >= 0.0
    && d.minOrderValue >= 0.0
    && (d.maxUses.None? || d.maxUses.value >= 1)
    && (d.maxUsesPerCustomer.None? || d.maxUsesPerCustomer.value >= 1)
    && d.validFrom < d.validTo
  }

  /** The `is_currently_valid` virtual: active and inside the closed window. */
  predicate IsCurrentlyValid(d: Discount, now: int) {
    d.isActive && d.validFrom <= now && d.validTo >= now
  }

  /** `hasUsageRemaining`: uncapped, or used fewer times than the cap. */
  predicate HasUsageRemaining(d: Discount) {
    d.maxUses.None? || d.currentUses < d.maxUses.value
  }

  /** `canBeUsedByCustomer`, given the number of the customer's orders that carry this discount. */
  predicate CanBeUsedByCustomer(d: Discount, customerUsage: nat) {
    d.maxUsesPerCustomer.None? || customerUsage < d.maxUsesPerCustomer.value
  }

  /**
   * `incrementUsage`: `$inc: { current_uses: 1 }` when the database write
   * goes through; a failed write is logged and swallowed, leaving the record as it was.
   */
  function IncrementUsage(d: Discount, written: bool): (r: Discount)
    ensures r == d.(currentUses := r.currentUses)
    ensures d.currentUses <= r.currentUses <= d.currentUses + 1
    ensures written <==> r.currentUses != d.currentUses
  {
    if written then d.(currentUses := d.currentUses + 1) else d
  }

  /** A run of `incrementUsage` calls, each with the given write outcome. */
  function IncrementAll(d: Discount, writes: seq<bool>): Discount
  {
    if |writes| == 0 then d else IncrementUsage(IncrementAll(d, writes[..|writes| - 1]), writes[|writes| - 1])
  }

  function CountWritten(writes: seq<bool>): nat
  {
    if |writes| == 0 then 0
    else CountWritten(writes[..|writes| - 1]) + (if writes[|writes| - 1] then 1 else 0)
  }

  /**
   * The usage counter only grows: after a run of `incrementUsage` calls it has
   * gone up by exactly the number of writes that went through, and nothing
   * else changed.
   */
  lemma {:induction false} IncrementAllCounts(d: Discount, writes: seq<bool>)
    ensures IncrementAll(d, writes) == d.(currentUses := d.currentUses + CountWritten(writes))
    ensures d.currentUses <= IncrementAll(d, writes).currentUses <= d.currentUses + |writes|
  {
    if |writes| > 0 {
      IncrementAllCounts(d, writes[..|writes| - 1]);
    }
  }

  /** Incrementing the counter never breaks the schema, which puts no bound on it. */
  lemma IncrementKeepsValid(d: Discount, written: bool)
    requires IsValidDiscount(d)
    ensures IsValidDiscount(IncrementUsage(d, written))
  {
  }
}

=== FILE: money.dfy ===
/** Exact money arithmetic and JavaScript's rounding to cents. */
module Money {

  /** True when x is a whole number of cents. */
  predicate IsCents(x: real) {
    (x * 100.0).Floor as real == x * 100.0
  }

  /** Math.min on two amounts. */
  function Min(a: real, b: real): (r: real)
    ensures r <= a && r <= b
    ensures r == a || r == b
  {
    if a <= b then a else b
  }

  /**
   * `Math.round(x * 100) / 100`. Math.round rounds to the nearest integer and
   * a fraction of exactly one half upwards, which is Floor(y + 1/2).
   */
  function RoundCents(x: real): (r: real)
    ensures IsCents(r)
    ensures x - 0.005 < r <= x + 0.005
    ensures x >= 0.0 ==> r >= 0.0
  {
    var n := (x * 100.0 + 0.5).Floor;
    assert (n as real * 100.0 / 100.0).Floor == n;
    n as real / 100.0
  }

  /** Rounding to cents never reverses the order of two amounts. */
  lemma RoundCentsMonotone(x: real, y: real)
    requires x <= y
    ensures RoundCents(x) <= RoundCents(y)
  {
    assert (x * 100.0 + 0.5).Floor <= (y * 100.0 + 0.5).Floor;
  }

  /** An amount already in whole cents is left as it is. */
  lemma RoundCentsOfCents(x: real)
    requires IsCents(x)
    ensures RoundCents(x) == x
  {
    var n := (x * 100.0).Floor;
    assert x * 100.0 + 0.5 == n as real + 0.5;
    assert (x * 100.0 + 0.5).Floor == n;
  }

  /** The difference of two amounts in whole cents is in whole cents. */
  lemma CentsDifference(x: real, y: real)
    requires IsCents(x) && IsCents(y)
    ensures IsCents(x - y)
  {
    var a := (x * 100.0).Floor;
    var b := (y * 100.0).Floor;
    assert (x - y) * 100.0 == (a - b) as real;
  }

  /**
   * Rounding a difference and taking the difference of the rounded amounts
   * agree to within one cent.
   */
  lemma RoundedDifferenceWithinCent(x: real, y: real)
    ensures -0.01 <= RoundCents(x - y) - (RoundCents(x) - RoundCents(y)) <= 0.01
  {
    var nx := (x * 100.0 + 0.5).Floor;
    var ny := (y * 100.0 + 0.5).Floor;
    var nd := ((x - y) * 100.0 + 0.5).Floor;
    assert x * 100.0 - 0.5 < nx as real <= x * 100.0 + 0.5;
    assert y * 100.0 - 0.5 < ny as real <= y * 100.0 + 0.5;
    assert (x - y) * 100.0 - 0.5 < nd as real <= (x - y) * 100.0 + 0.5;
    assert -1 <= nd - (nx - ny) <= 1;
    assert RoundCents(x - y) - (RoundCents(x) - RoundCents(y)) == (nd - (nx - ny)) as real / 100.0;
  }

  /** Scaling a sum scales each part. */
  lemma ShareOfSum(a: real, b: real, k: real)
    ensures (a + b) * k == a * k + b * k
  {
  }

  /** A share between none and all of an amount that is not negative lies between zero and the amount. */
  lemma ShareAtMostWhole(t: real, k: real)
    requires t >= 0.0 && 0.0 <= k <= 1.0
    ensures 0.0 <= t * k <= t
  {
    assert t - t * k == t * (1.0 - k);
  }

  lemma ProductNonNegative(a: real, b: real)
    requires a >= 0.0 && b >= 0.0
    ensures a * b >= 0.0
  {
  }
}

=== FILE: order_controller.dfy ===
/**
 * Order placement and status changes of backend/controllers/orderController.js.
 * Placement neither re-validates the cart's discount nor increments its usage.
 */
module OrderController {
  import opened Wrappers
  import opened Api
  import opened Catalog
  import opened Carts
  import opened Orders

  /** A placed order together with the cart as it is saved afterwards. */
  datatype Placement = Placement(order: Order, cart: Cart)

  /** The cart lines as order lines without a price, the way the handler passes `cart.items`. */
  function UnpricedLines(items: seq<CartLine>): (r: seq<DraftLine>)
    ensures |r| == |items|
  {
    seq(|items|, i requires 0 <= i < |items| => DraftLine(items[i].menuItem.id, items[i].quantity, None))
  }

  /** The cart lines as order lines carrying each menu item's current price. */
  function PricedLines(items: seq<CartLine>): (r: seq<DraftLine>)
    ensures |r| == |items|
    ensures forall i :: 0 <= i < |items| ==>
      r[i].menuItem == items[i].menuItem.id && r[i].quantity == items[i].quantity
      && r[i].price == Some(items[i].menuItem.price)
  {
    seq(|items|, i requires 0 <= i < |items| => DraftLine(items[i].menuItem.id, items[i].quantity, Some(items[i].menuItem.price)))
  }

  /**
   * `placeOrder` as written: after the empty-cart check it builds
   * `new Order({ user, items: cart.items, totalPrice })`. The schema has no
   * `user` or `totalPrice` path, so both are dropped, and the required
   * `customer`, item `price`, `total_before_discount` and
   * `total_after_discount` are missing: saving the order always fails, and
   * the cart is never emptied.
   */
  function PlaceOrderAsWritten(cart: Option<Cart>, now: int): (r: Result<Placement, ApiError>)
    ensures r.Failure?
    ensures cart.None? || cart.value.items == [] ==> r == Failure(BadRequest(EmptyCartMessage))
    ensures cart.Some? && cart.value.items != [] ==> r == Failure(ServerError(ValidationFailed))
  {
    if cart.None? || |cart.value.items| == 0 then Failure(BadRequest(EmptyCartMessage))
    else
      var c := cart.value;
      // the schema drops `user` and `totalPrice`, which it does not declare
      var draft := OrderDraft(None, UnpricedLines(c.items), None, None);
      match CreateOrder(draft, now)
      case Failure(e) => Failure(e)
      case Success(order) => Success(Placement(order, c.(items := [])))
  }

  /**
   * `placeOrder` with the order built under the schema's own names: the
   * customer, each line's current price, and the reduce total as both the
   * total before and after discount (the handler applies no discount). After
   * a successful save the cart's lines are emptied; its other fields stay.
   */
  function PlaceOrder(cart: Option<Cart>, user: UserId, now: int): (r: Result<Placement, ApiError>)
    ensures cart.None? || cart.value.items == [] ==> r == Failure(BadRequest(EmptyCartMessage))
    ensures (cart.Some? && cart.value.items != [] && LinesValid(cart.value.items)
             && NonNegativeLines(cart.value.items)) ==> r.Success?
    ensures r.Success? ==> cart.Some? && r.value.cart == cart.value.(items := [])
    ensures r.Success? ==>
      var o := r.value.order;
      && o.customer == user
      && o.totalBeforeDiscount == Total(cart.value.items)
      && o.totalAfterDiscount == o.totalBeforeDiscount
      && o.discount.None? && o.discountAmount == 0.0
      && ValidateTotals(o) && IsValidOrder(o)
      && o.status == Pending && o.orderDate == now
      && |o.items| == |cart.value.items|
      && forall i :: 0 <= i < |o.items| ==>
           o.items[i] == OrderLine(cart.value.items[i].menuItem.id, cart.value.items[i].quantity,
                                   cart.value.items[i].menuItem.price)
  {
    if cart.None? || |cart.value.items| == 0 then Failure(BadRequest(EmptyCartMessage))
    else
      var items := cart.value.items;
      var total := Total(items);
      var draft := OrderDraft(Some(user), PricedLines(items), Some(total), Some(total));
      match CreateOrder(draft, now)
      case Failure(e) => Failure(e)
      case Success(order) => Success(Placement(order, cart.value.(items := [])))
  }

  /**
   * `updateOrderStatus`: an unknown id is a 404; a status outside the enum
   * fails the schema; otherwise the status is set, from any status to any
   * other, and nothing else about the order changes.
   */
  function UpdateOrderStatus(orders: map<OrderId, Order>, id: OrderId, status: string): (r: Result<Order, ApiError>)
    ensures id !in orders <==> r == Failure(NotFound("Order not found"))
    ensures id in orders && ParseStatus(status).None? ==> r == Failure(ServerError(ValidationFailed))
    ensures id in orders && ParseStatus(status).Some? ==> r.Success?
    ensures r.Success? ==>
      id in orders && r.value == orders[id].(status := r.value.status) && StatusName(r.value.status) == status
  {
    if id !in orders then Failure(NotFound("Order not found"))
    else
      match ParseStatus(status)
      case None => Failure(ServerError(ValidationFailed))
      case Some(s) => Success(orders[id].(status := s))
  }
}

=== FILE: orders.dfy ===
/** The order document, its schema and its predicates (backend/models/orderModel.js). */
module Orders {
  import opened Wrappers
  import opened Api
  import opened Catalog
  import opened Discounts

  type OrderId = string

  /** The `status` enum. */
  datatype OrderStatus = Pending | Paid | Completed | Canceled

  function StatusName(s: OrderStatus): string {
    match s
    case Pending => "pending"
    case Paid => "paid"
    case Completed => "completed"
    case Canceled => "canceled"
  }

  /** Reads a status string; None for anything outside the enum. */
  function ParseStatus(s: string): (r: Option<OrderStatus>)
    ensures r.Some? ==> StatusName(r.value) == s
    ensures r.None? <==> s !in {"pending", "paid", "completed", "canceled"}
  {
    if s == "pending" then Some(Pending)
    else if s == "paid" then Some(Paid)
    else if s == "completed" then Some(Completed)
    else if s == "canceled" then Some(Canceled)
    else None
  }

  /** Every status reads back from its own name. */
  lemma ParseStatusName(s: OrderStatus)
    ensures ParseStatus(StatusName(s)) == Some(s)
  {
  }

  /** One ordered line, with the unit price at order time. */
  datatype OrderLine = OrderLine(menuItem: ItemId, quantity: int, price: real)

  datatype Order = Order(
    customer: UserId,
    items: seq<OrderLine>,
    totalBeforeDiscount: real,
    discount: Option<DiscountId>,
    discountAmount: real,
    totalAfterDiscount: real,
    orderDate: int,
    status: OrderStatus
  )

  /** The schema's bounds: line quantities at least 1, prices and all three totals not negative. */
  predicate IsValidOrder(o: Order) {
    && (forall i :: 0 <= i < |o.items| ==> o.items[i].quantity >= 1 && o.items[i].price >= 0.0)
    && o.totalBeforeDiscount >= 0.0
    && o.discountAmount >= 0.0
    && o.totalAfterDiscount >= 0.0
  }

  /** The `savings` virtual. */
  function Savings(o: Order): real {
    o.totalBeforeDiscount - o.totalAfterDiscount
  }

  /** The `validateTotals` method. */
  predicate ValidateTotals(o: Order) {
    o.totalAfterDiscount == o.totalBeforeDiscount - o.discountAmount
  }

  /** The savings are the recorded discount amount exactly when the totals validate. */
  lemma SavingsIsDiscountAmount(o: Order)
    ensures ValidateTotals(o) <==> Savings(o) == o.discountAmount
  {
  }

  /**
   * What a caller hands to `new Order({...})`, with None for a path left
   * undefined. The paths not listed take their schema defaults.
   */
  datatype DraftLine = DraftLine(menuItem: ItemId, quantity: int, price: Option<real>)
  datatype OrderDraft = OrderDraft(
    customer: Option<UserId>,
    items: seq<DraftLine>,
    totalBeforeDiscount: Option<real>,
    totalAfterDiscount: Option<real>
  )

  predicate DraftLineAccepted(l: DraftLine) {
    l.quantity >= 1 && l.price.Some? && l.price.value >= 0.0
  }

  /** The required paths are present and every bound holds. */
  predicate DraftAccepted(d: OrderDraft) {
    && d.customer.Some?
    && (forall i :: 0 <= i < |d.items| ==> DraftLineAccepted(d.items[i]))
    && d.totalBeforeDiscount.Some? && d.totalBeforeDiscount.value >= 0.0
    && d.totalAfterDiscount.Some? && d.totalAfterDiscount.value >= 0.0
  }

  /**
   * Building and saving an order: the validators reject a draft that misses a
   * required path or breaks a bound; otherwise the defaults fill in
   * `discount: null`, `discount_amount: 0`, `order_date: now` and `status: "pending"`.
   */
  function CreateOrder(d: OrderDraft, now: int): (r: Result<Order, ApiError>)
    ensures r.Success? <==> DraftAccepted(d)
    ensures r.Failure? ==> r.error == ServerError(ValidationFailed)
    ensures r.Success? ==> IsValidOrder(r.value)
    ensures r.Success? ==> (ValidateTotals(r.value) <==> r.value.totalAfterDiscount == r.value.totalBeforeDiscount)
    ensures r.Success? ==>
      && Some(r.value.customer) == d.customer
      && |r.value.items| == |d.items|
      && (forall i :: 0 <= i < |d.items| ==>
            r.value.items[i].menuItem == d.items[i].menuItem
            && r.value.items[i].quantity == d.items[i].quantity
            && Some(r.value.items[i].price) == d.items[i].price)
      && Some(r.value.totalBeforeDiscount) == d.totalBeforeDiscount
      && Some(r.value.totalAfterDiscount) == d.totalAfterDiscount
      && r.value.discount.None? && r.value.discountAmount == 0.0
      && r.value.orderDate == now && r.value.status == Pending
  {
    if !DraftAccepted(d) then Failure(ServerError(ValidationFailed))
    else
      var lines := seq(|d.items|, i requires 0 <= i < |d.items| =>
        OrderLine(d.items[i].menuItem, d.items[i].quantity, d.items[i].price.GetOr(0.0)));
      Success(Order(d.customer.value, lines, d.totalBeforeDiscount.value, None, 0.0,
                    d.totalAfterDiscount.value, now, Pending))
  }
}

=== FILE: scenarios.dfy ===
/**
 * The scenarios of backend/tests/discountSystem.test.js, restated as lemmas
 * about the model: a cart of two lattes at 4.99 and one croissant at 3.50,
 * and the four discounts the tests create. Time is in milliseconds, with
 * `Now` the moment the tests run.
 */
module Scenarios {
  import opened Wrappers
  import opened Money
  import opened Catalog
  import opened Discounts
  import opened Carts
  import opened DiscountService

  const Now := 0
  const Day := 24 * 60 * 60 * 1000

  const Latte := MenuItem("latte", 4.99)
  const Croissant := MenuItem("croissant", 3.50)
  const TestCart := [CartLine(Latte, 2), CartLine(Croissant, 1)]
  const SmallCart := [CartLine(Croissant, 1)]

  const TenPercent := Discount("d-10", "10% Off", "10% off your order", Percentage, 10.0, 5.00,
    Now - Day, Now + 30 * Day, Some(100), Some(2), true, [], 0)
  const TwoOff := Discount("d-2", "$2 Off", "$2 off your order", Fixed, 2.00, 10.00,
    Now - Day, Now + 30 * Day, None, None, true, [], 0)
  const CoffeeTwenty := Discount("d-coffee", "Coffee 20% Off", "20% off all coffee items", ItemSpecific, 20.0, 0.0,
    Now - Day, Now + 30 * Day, None, None, true, ["latte"], 0)
  const ExpiredDiscount := Discount("d-old", "Expired Discount", "This discount has expired", Percentage, 15.0, 0.0,
    Now - 2 * Day, Now - Day, None, None, true, [], 0)

  lemma TestCartTotals()
    ensures Total(TestCart) == 13.48
    ensures Total(SmallCart) == 3.50
  {
    assert TestCart[..1] == [CartLine(Latte, 2)];
    assert TestCart[..1][..0] == [];
    assert Total(TestCart[..1]) == 9.98;
    assert Total(TestCart) == Total(TestCart[..1]) + 3.50;
    assert SmallCart[..0] == [];
  }

  /** The four discounts the tests create all pass the schema. */
  lemma TestDiscountsAreValid()
    ensures IsValidDiscount(TenPercent) && IsValidDiscount(TwoOff)
    ensures IsValidDiscount(CoffeeTwenty) && IsValidDiscount(ExpiredDiscount)
  {
    Utf16LengthBounds(TenPercent.name);
    Utf16LengthBounds(TwoOff.name);
    Utf16LengthBounds(CoffeeTwenty.name);
    Utf16LengthBounds(ExpiredDiscount.name);
  }

  /** Validation: the 10% discount is accepted, the expired one refused, and the minimum order enforced. */
  lemma ValidationScenarios()
    ensures ValidateDiscount(TenPercent, TestCart, Some(0), 13.48, Now) == Valid
    ensures ValidateDiscount(ExpiredDiscount, TestCart, Some(0), 13.48, Now) == Invalid(Expired)
    ensures ValidateDiscount(TenPercent, SmallCart, Some(0), 3.50, Now) == Invalid(BelowMinimum(5.00))
  {
  }

  /** A per-customer cap of 2 refuses a customer with two such orders and accepts one with one. */
  lemma PerCustomerCapScenario()
    ensures ValidateDiscount(TenPercent, TestCart, Some(2), 13.48, Now) == Invalid(CustomerLimitExceeded)
    ensures ValidateDiscount(TenPercent, TestCart, Some(1), 13.48, Now) == Valid
    ensures ValidateDiscount(TenPercent, TestCart, None, 13.48, Now) == Invalid(LookupFailed)
  {
  }

  /** Amounts: 10% gives 1.348 (1.35 in cents), $2 gives 2.00, 20% on the lattes gives 1.996 (2.00 in cents). */
  lemma CalculationScenarios()
    ensures CalculateDiscountAmount(TenPercent, TestCart, 13.48) == 1.348
    ensures RoundCents(1.348) == 1.35
    ensures CalculateDiscountAmount(TwoOff, TestCart, 13.48) == 2.00
    ensures CalculateDiscountAmount(CoffeeTwenty, TestCart, 13.48) == 1.996
    ensures RoundCents(1.996) == 2.00
  {
    assert (1.348 * 100.0 + 0.5).Floor == 135;
    assert (1.996 * 100.0 + 0.5).Floor == 200;
    var eligible := EligibleLines(TestCart, ["latte"]);
    assert TestCart[..1] == [CartLine(Latte, 2)];
    assert TestCart[..1][..0] == [];
    assert EligibleLines(TestCart[..1][..0], ["latte"]) == [];
    assert EligibleLines(TestCart[..1], ["latte"]) == [CartLine(Latte, 2)];
    assert eligible == [CartLine(Latte, 2)];
    assert eligible[..0] == [];
    assert Total(eligible) == 9.98;
  }

  /**
   * Applying the 10% discount to the test cart, as the service is written,
   * gives 1.35 off 13.48, leaving 12.13; here the corrected application agrees.
   */
  lemma ApplicationScenario()
    ensures ApplyDiscountToCartAsWritten(TenPercent, TestCart, Some(0), Now) == Applied(1.35, 13.48, 12.13)
    ensures ApplyDiscountToCart(TenPercent, TestCart, Some(0), Now) == Applied(1.35, 13.48, 12.13)
  {
    TestCartTotals();
    CalculationScenarios();
    assert (13.48 * 100.0 + 0.5).Floor == 1348;
    assert ((13.48 - 1.348) * 100.0 + 0.5).Floor == 1213;
    RoundCentsOfCents(13.48);
  }

  /** The count lookup for a customer who has placed no orders with any discount. */
  function NoPriorOrders(id: DiscountId): Option<nat> {
    Some(0)
  }

  /** The expired discount alone is not listed. */
  lemma ListingOfExpired()
    ensures GetAvailableDiscounts([ExpiredDiscount], Now, NoPriorOrders) == Success([])
  {
    assert [ExpiredDiscount][1..] == [];
  }

  /** The coffee discount is listed ahead of the expired one. */
  lemma ListingOfCoffee()
    ensures GetAvailableDiscounts([CoffeeTwenty, ExpiredDiscount], Now, NoPriorOrders) == Success([CoffeeTwenty])
  {
    var ds := [CoffeeTwenty, ExpiredDiscount];
    assert ds[1..] == [ExpiredDiscount];
    ListingOfExpired();
    assert [CoffeeTwenty] + [] == [CoffeeTwenty];
  }

  /** The fixed discount is listed ahead of the coffee one. */
  lemma ListingOfFixed()
    ensures GetAvailableDiscounts([TwoOff, CoffeeTwenty, ExpiredDiscount], Now, NoPriorOrders) == Success([TwoOff, CoffeeTwenty])
  {
    var ds := [TwoOff, CoffeeTwenty, ExpiredDiscount];
    assert ds[1..] == [CoffeeTwenty, ExpiredDiscount];
    ListingOfCoffee();
    assert [TwoOff] + [CoffeeTwenty] == [TwoOff, CoffeeTwenty];
  }

  /** The listing excludes the expired discount and keeps the three live ones, in order. */
  lemma AvailableListingScenario()
    ensures GetAvailableDiscounts([TenPercent, TwoOff, CoffeeTwenty, ExpiredDiscount], Now, NoPriorOrders)
      == Success([TenPercent, TwoOff, CoffeeTwenty])
  {
    var ds := [TenPercent, TwoOff, CoffeeTwenty, ExpiredDiscount];
    assert ds[1..] == [TwoOff, CoffeeTwenty, ExpiredDiscount];
    ListingOfFixed();
    assert [TenPercent] + [TwoOff, CoffeeTwenty] == [TenPercent, TwoOff, CoffeeTwenty];
  }

  /**
   * Rounding the three fields on their own breaks the triad: 25% off a 4.50
   * cart is 1.125, shown as 1.13 off 4.50 leaving 3.38, although
   * 4.50 - 1.13 is 3.37. The corrected application leaves 3.37.
   */
  lemma RoundedTriadCounterexample()
    ensures var d := TenPercent.(value := 25.0, minOrderValue := 0.0);
      var items := [CartLine(MenuItem("mocha", 4.50), 1)];
      && ApplyDiscountToCartAsWritten(d, items, Some(0), Now) == Applied(1.13, 4.50, 3.38)
      && 3.38 != 4.50 - 1.13
      && ApplyDiscountToCart(d, items, Some(0), Now) == Applied(1.13, 4.50, 3.37)
  {
    var items := [CartLine(MenuItem("mocha", 4.50), 1)];
    assert items[..0] == [];
    assert Total(items) == 4.50;
    assert (112.5 + 0.5).Floor == 113;
    assert (450.0 + 0.5).Floor == 450;
    assert (337.5 + 0.5).Floor == 338;
  }
}

=== FILE: wrappers.dfy ===
/** Option and Result, used for nullable fields, failed lookups and error returns. */
module Wrappers {

  /** `None` stands for JavaScript's `null` or `undefined`. */
  datatype Option<+T> = None | Some(value: T) {

    /** The value, or `default` when absent. */
    function GetOr(default: T): T {
      match this
      case Some(v) => v
      case None => default
    }
  }

  datatype Result<+T, +E> = Success(value: T) | Failure(error: E)
}
